=== FILE: README.md ===
# mq2db core in Dafny

mq2db bridges ZeroMQ message sources ("targets") to SQL databases. Each target runs one worker. The worker:

- receives a message;
- decodes it with the target's loader into one record or a list of records;
- stamps the records with the enabled auto-columns (`_datetime_`, `_timestamp_`, `_raw_`);
- lays each record over `None` for every configured column;
- buffers the records;
- once more than the configured interval has passed since the last flush, flushes the buffer to a database whose URL is a strftime template of the receive time.

Every flush runs the same statements: the init statements, a `CREATE TABLE IF NOT EXISTS`, the `CREATE INDEX IF NOT EXISTS` statements, and a bulk `INSERT`. All of them are synthesised once from the target's configuration.

The model covers that per-target core and the controller's pure helpers. The modules are:

- `Results`: Option and Result values, and the Python exceptions the model reports.
- `Strings`: the Python string operations the core uses: `join`, `split`, `strip`, `splitlines` and `upper`.
- `Loaders`: the values a record holds, `DictLoader`, and `CSVLoader` with csv.DictReader's behaviour. The latter covers:
  - a header read from the first line when none is given;
  - blank lines skipped;
  - a row of the wrong width raising on `None.strip()`;
  - `dict(zip(...))` followed by the strip loop, where a later duplicate key wins.
- `Schema`: the CREATE TABLE body clause by clause, the index statements and the INSERT statement. It includes `_Worker.__init__`'s building loops as methods proved against those functions.
- `Pipeline`: the run loop as a state machine over values. This covers:
  - record normalisation;
  - the flush, which writes to an abstract sink that may refuse the connection or any statement;
  - the interval check;
  - a loader exception ending the loop;
  - the final flush.
  The durable contents of the database are a sequence of committed batches. Time is an integer number of microseconds.
- `Workers`: class `Worker`. Its constant fields are what `__init__` computes. `rows`, `prev` and `now` are mutable fields. Its methods `Flush`, `Append`, `Receive` and `Run` are each proved equal to the corresponding `Pipeline` function.
- `Controller`: `_get_section` over a YAML node tree, `__str__` and `__repr__`.
- `Scenarios`: end-to-end runs on short message sequences. They cover the sensor-table CSV example, two messages within one interval, and one message delivered by the loop or by the final flush.

The model follows these behaviours of the code, which are easy to expect otherwise:

- Decoded keys that are not configured columns are kept in the buffered dict (`dict_repr.update(each)`). They are not dropped.
- An exception raised by the loader is not caught, because only `zmq.Again` is. It ends `run` at once, without the final flush.
- The interval check runs only after a message was received: a timeout `continue`s past it. It runs whether or not the buffer is empty, and `flush` on an empty buffer returns normally, so `prev` moves to `now` then too.
- A CSV `time` field is kept as a column of its own and has no bearing on `_datetime_`.

## Model

| member | source | states |
|---|---|---|
| Strings.Split | src/mq2db/__init__.py:255 | `section.split(".")` gives one piece more than there are dots, and no piece holds a dot |
| Strings.SplitAround | src/mq2db/__init__.py:255 | splitting `a + "." + b` gives the pieces of `a` followed by the pieces of `b` |
| Strings.SplitJoin | src/mq2db/__init__.py:255 | splitting undoes joining with the separator when no part holds it |
| Strings.JoinSplit | src/mq2db/__init__.py:255 | joining the pieces with the separator gives the original text back |
| Strings.StripStripped | src/mq2db/__init__.py:71 | what `strip()` returns neither starts nor ends with white space |
| Strings.StripShape | src/mq2db/__init__.py:71 | what `strip()` returns is a contiguous piece of the input, with only white space before and after it |
| Strings.StripUnique | src/mq2db/__init__.py:71 | stripping stripped text padded with any white space gives that text back |
| Strings.SplitLines | src/mq2db/__init__.py:68 | no line that `splitlines()` returns holds a line break |
| Strings.SplitLinesJoin | src/mq2db/__init__.py:293 | `splitlines()` undoes `"\n".join` for break-free lines whose last line is not empty |
| Strings.SingleLine | src/mq2db/__init__.py:68 | non-empty text without a line break is a single line |
| Strings.Upper | src/mq2db/__init__.py:287 | `upper()` keeps the length, maps each lower-case ASCII letter to its capital and leaves every other character alone |
| Loaders.Fields | src/mq2db/__init__.py:68 | a line has no fields exactly when it is empty |
| Loaders.DataRows | src/mq2db/__init__.py:68 | the reader yields at most one row per line and never an empty one |
| Loaders.DataRowsConcat | src/mq2db/__init__.py:68 | the rows of two runs of lines are the rows of the first followed by those of the second |
| Loaders.DataRowsSingle | src/mq2db/__init__.py:68 | a blank line yields no row, any other line exactly its fields |
| Loaders.StripItemsLast | src/mq2db/__init__.py:69-71 | an item whose stripped key no later item shares survives in `line_data`, stripped |
| Loaders.StripItemsStripped | src/mq2db/__init__.py:69-71 | every key and every value of `line_data` is stripped |
| Loaders.StripItemsSource | src/mq2db/__init__.py:69-71 | every key of `line_data` is the stripped key of some item of the row |
| Loaders.ZipDictDistinct | src/mq2db/__init__.py:68 | with distinct header names, the row's dict keeps every name-field pair, in order |
| Loaders.RowOfStrippedFields | src/mq2db/__init__.py:66-72 | with distinct stripped names and stripped fields, a row's dict maps exactly the header names, each to its own field |
| Loaders.CsvTable | src/mq2db/__init__.py:66-72 | loading succeeds exactly when every row has the header's width; the result has one dict per row, in order; otherwise it raises AttributeError on `None.strip()` |
| Loaders.CsvSingleLine | src/mq2db/__init__.py:66-72 | one line of comma-free fields under a given header gives one stripped dict when the widths agree, and raises otherwise |
| Loaders.StripRow | src/mq2db/__init__.py:69-71 | the inner loop computes the stripped dict of the row's items |
| Loaders.StripRows | src/mq2db/__init__.py:67-72 | the outer loop gives one dict per data row, in order, or the exception of the first row of the wrong width |
| Loaders.CsvRecords | src/mq2db/__init__.py:66-72 | under a given header, the table of all non-blank lines; under the default `header=None`, the table of the non-blank lines after the first under the first line's fields; so one stripped dict per data row, in order, or the `None.strip()` exception; text without lines gives no records |
| Loaders.LoadCsv | src/mq2db/__init__.py:66-72 | `CSVLoader.__call__` on decoded text is the table of its data lines under the given or first-line header |
| Loaders.AsRecord | src/mq2db/__init__.py:66-72 | a CSV dict becomes a record with the same keys, every value a string |
| Loaders.Load | src/mq2db/__init__.py:19-72 | `DictLoader` hands back whatever it is given, bytes included; `CSVLoader` raises AttributeError on a non-bytes payload, and on bytes succeeds exactly when the text loads, giving one record per CSV dict, in order, or otherwise the `None.strip()` exception |
| Schema.ColumnNames | src/mq2db/__init__.py:157 | the configured column names, in configured order |
| Schema.PrimaryKey | src/mq2db/__init__.py:129 | the configured key when one is given; `[_datetime_]` exactly when the key is absent and `_datetime_` is on; none when it is configured as null or is absent with `_datetime_` off |
| Schema.TableSql | src/mq2db/__init__.py:145 | the statement is exactly `CREATE TABLE IF NOT EXISTS <name> (` and a line break, the rendered column elements of `TableClauses` joined by `,` and a line break, then `);`; so it starts with that head and ends with `);` |
| Schema.AppendConstraints | src/mq2db/__init__.py:141-143 | the loop appends one CONSTRAINT element per unique entry, in order |
| Schema.BuildColumnsSpec | src/mq2db/__init__.py:132-144 | the inserts and appends on `columns_spec` give the rendered clause layout: timestamp, datetime, user block, raw, primary key, constraints |
| Schema.TableColumnOrder | src/mq2db/__init__.py:132-138 | the table declares `_timestamp_`, `_datetime_`, the user columns, then `_raw_`, each only when enabled |
| Schema.InsertColumnOrder | src/mq2db/__init__.py:158-164 | after the user columns the INSERT lists `_datetime_`, `_timestamp_`, `_raw_` in that order, each only when enabled (the table declares `_timestamp_` first) |
| Schema.TableDeclaresInsertColumns | src/mq2db/__init__.py:132-164 | the INSERT names exactly the columns the table declares, each as often, though in another order |
| Schema.InsertColumns | src/mq2db/__init__.py:157-164 | the user columns in configured order, then each enabled auto-column exactly when it is enabled, and nothing else |
| Schema.InsertSql | src/mq2db/__init__.py:166-170 | the statement is exactly a line break, the indentation, `INSERT <prefix> INTO <name>(`, the `InsertColumns` names joined by `, `, `)`, a line break, the indentation, `VALUES(`, one `:<name>` placeholder per insert column, `)`, a line break and the indentation |
| Schema.PlaceholdersMatchColumns | src/mq2db/__init__.py:165 | the placeholder list holds one `:column` per insert column, in the same order, when no name holds a comma |
| Schema.BuildIndexStatements | src/mq2db/__init__.py:148-153 | one CREATE INDEX statement per configured index, in order, on the target's table |
| Schema.EmptyColumnsLeaveEmptyClause | src/mq2db/__init__.py:132-144 | with no user columns, the CREATE TABLE body still holds an empty element after the leading auto-columns |
| Pipeline.EpochSeconds | src/mq2db/__init__.py:212 | `int(now.timestamp())` is the number of whole seconds, truncated toward zero |
| Pipeline.Stamp | src/mq2db/__init__.py:209-214 | the record gains exactly the enabled auto-columns: receive time, epoch seconds and payload; its other keys keep their values |
| Pipeline.NormalizeRecord | src/mq2db/__init__.py:208-217 | the appended dict has every decoded key, every configured column and the enabled auto-columns. A configured column the record lacks is `None`, decoded values win, and every insert column has a value |
| Pipeline.InsertColumnsCovered | src/mq2db/__init__.py:158-164 | every insert column is a configured column or an enabled auto-column |
| Pipeline.Items | src/mq2db/__init__.py:205-217 | a record becomes a one-element list and a list is kept; bytes reach the loop body as they are, which raises TypeError unless they are empty and no auto-column is enabled, and then yields one empty record |
| Pipeline.DictLoaderOnBytes | src/mq2db/__init__.py:205-217 | under `DictLoader`, bytes raise TypeError unless they are empty and no auto-column is enabled; empty bytes then add one row with `None` in every configured column |
| Pipeline.Flushed | src/mq2db/__init__.py:182-195 | an empty buffer is a no-op; otherwise the buffer goes as one batch to the URL for `now` and is cleared exactly when every statement succeeds, and is otherwise kept. Against a sink that commits a flush whole or not at all, no row is lost or duplicated |
| Pipeline.Check | src/mq2db/__init__.py:221-226 | within the interval nothing changes; after it, a flush that returns empties the buffer and moves `prev` to `now`, and a flush that raises leaves the state as it was; an empty buffer writes no batch |
| Pipeline.Iterate | src/mq2db/__init__.py:200-226 | a timeout changes nothing; a crash is final; a message ends the loop exactly when its records cannot be unpacked, with that exception; otherwise its records join the buffer and the due flush empties it and moves `prev` when it returns |
| Pipeline.IterateKeepsOrder | src/mq2db/__init__.py:203-226 | one pass appends exactly the message's records. A batch is written only after a message more than the interval after `prev`, and holds the whole buffer; a pass that leaves the buffer empty writes no batch |
| Pipeline.CrashIsFinal | src/mq2db/__init__.py:202-219 | after a loader exception, later messages change nothing |
| Pipeline.StepsKeepEveryRecord | src/mq2db/__init__.py:197-226 | the committed rows followed by the buffer are all decoded records, in arrival order |
| Pipeline.Run | src/mq2db/__init__.py:197-227 | `run` is aborted exactly when the loop crashed, with its state; otherwise the final flush returns exactly when the buffer is empty or every statement succeeds, and then commits the whole buffer as the last batch, else nothing changes |
| Pipeline.RunAbortsAtFailure | src/mq2db/__init__.py:200-219 | a run aborts with the exception of the first message whose records cannot be unpacked, keeping what was committed before it |
| Pipeline.StepsWithoutFailure | src/mq2db/__init__.py:200-226 | passes over messages whose records all unpack never end the loop |
| Pipeline.RunStopsWithoutFailure | src/mq2db/__init__.py:197-227 | without such a message the run is never aborted |
| Pipeline.RunDeliversEveryRecord | src/mq2db/__init__.py:197-227 | once `run` stops, every record received is committed or buffered, in order; the buffer ends empty exactly when the final flush returned |
| Pipeline.RunEndsEmpty | src/mq2db/__init__.py:227 | a stopped run ends with an empty buffer exactly when its final flush returned |
| Pipeline.IngestedBinds | src/mq2db/__init__.py:208-217 | every record the loop decodes has a value for every insert placeholder |
| Pipeline.DecodedBinds | src/mq2db/__init__.py:208-217 | every row one message adds has a value for every insert placeholder |
| Pipeline.StepsBindInsert | src/mq2db/__init__.py:194-217 | every row the loop buffers or commits binds every insert placeholder |
| Pipeline.OneMessageOneTime | src/mq2db/__init__.py:204-212 | all records of one message carry the same `_datetime_` and `_timestamp_`, those of its receive time |
| Pipeline.RetryDeliversBacklog | src/mq2db/__init__.py:221-226 | a failed flush keeps the buffer and `prev`; the next message, with a working sink, flushes the backlog and its own records as one batch |
| Workers.ExecuteAll | src/mq2db/__init__.py:189-193 | the statements all succeed exactly when each one does |
| Workers.Worker.constructor | src/mq2db/__init__.py:125-176 | the table, index and insert statements, the columns and the interval are those the configuration determines |
| Workers.Worker.Flush | src/mq2db/__init__.py:182-195 | the method's outcome and new state are those of `Flushed` |
| Workers.Worker.Append | src/mq2db/__init__.py:208-217 | the buffer grows by the normalised records, in order, and nothing else changes |
| Workers.Worker.Receive | src/mq2db/__init__.py:200-226 | one pass of the loop has the outcome and new state of `Iterate` |
| Workers.Worker.Run | src/mq2db/__init__.py:197-227 | `run` ends as the pipeline `Run` does, with the same buffer and batches |
| Workers.Normalize | src/mq2db/__init__.py:209-216 | the dict built for one record is `NormalizeRecord`'s |
| Controller.Lookup | src/mq2db/__init__.py:256 | a dict lookup fails exactly when no entry has the key, and otherwise finds a bound value |
| Controller.Child | src/mq2db/__init__.py:256 | `conf[sec]` raises KeyError for a missing key and TypeError on a non-dict |
| Controller.DescendConcat | src/mq2db/__init__.py:255-256 | descending a path `a + b` is descending `a`, then `b` from there |
| Controller.DescendKeyError | src/mq2db/__init__.py:255-256 | a KeyError names one of the keys along the path |
| Controller.GetSection | src/mq2db/__init__.py:253-257 | the loop performs one lookup per dotted part, in order, stopping at the first exception |
| Controller.SectionWithoutDot | src/mq2db/__init__.py:253-257 | a section name without a dot is a single lookup |
| Controller.SectionsCompose | src/mq2db/__init__.py:253-257 | selecting `"outer.inner"` selects `inner` within `outer` |
| Controller.Show | src/mq2db/__init__.py:289 | a string or scalar shows as its text; only those are rendered |
| Controller.TargetLine | src/mq2db/__init__.py:286-289 | a target's line exists exactly when it has an address, a string type and printable values. It starts with `"<target>: "`; a missing address raises KeyError('address') |
| Controller.UpperSub | src/mq2db/__init__.py:287 | the default type upper-cased is `SUB` |
| Controller.TargetLineDefaults | src/mq2db/__init__.py:286-289 | a target with only an address shows as `<target>: <addr> (SUB, connect)` |
| Controller.TargetLineGiven | src/mq2db/__init__.py:286-289 | a target with a type and a method shows them, the type upper-cased |
| Controller.TargetLineOneDefault | src/mq2db/__init__.py:286-289 | a target given only one of type and method takes the default for the other |
| Controller.TargetLines | src/mq2db/__init__.py:285-289 | the lines exist exactly when every target's line does, one per target, in order |
| Controller.FirstFailingLine | src/mq2db/__init__.py:285-289 | the exception raised is that of the first target whose line fails |
| Controller.Describe | src/mq2db/__init__.py:282-290 | `__str__` joins the target lines with newlines, or raises the first exception |
| Controller.Summary | src/mq2db/__init__.py:282-290 | `__str__` succeeds exactly when `targets` is a dict whose every target has a line; a missing `targets` raises its KeyError and a non-dict AttributeError; no targets give empty text, one target its line |
| Controller.Repr | src/mq2db/__init__.py:292-293 | `__repr__` fails exactly when `__str__` does, with the same exception, and otherwise is wrapped in `Mq2db(` and `)` |
| Controller.ReprIsOneLine | src/mq2db/__init__.py:292-293 | `repr` never holds a line break |
| Controller.ReprShowsEveryTarget | src/mq2db/__init__.py:292-293 | when no line holds a break, `repr` shows exactly the target lines separated by `|` |
| Scenarios.TwoMessagesOneFlush | src/mq2db/__init__.py:197-227 | two messages within one interval are committed by the final flush as one batch, in order, leaving the buffer empty |
| Scenarios.SensorLine | src/mq2db/__init__.py:66-72 | a `time,rssi,payload` line under that header loads as one dict of the three stripped fields |
| Scenarios.SensorRecord | src/mq2db/__init__.py:66-72 | the dict of such a line becomes the record of its three fields as strings |
| Scenarios.SensorLoaded | src/mq2db/__init__.py:66-72 | the CSV loader gives one record of three strings for that line |
| Scenarios.SensorNormalized | src/mq2db/__init__.py:208-217 | normalising it adds `_datetime_` as the receive time and keeps the `time` field |
| Scenarios.SensorDecoded | src/mq2db/__init__.py:203-217 | the message contributes exactly that one row to the buffer |
| Scenarios.OneMessageDelivered | src/mq2db/__init__.py:197-227 | one accepted message ends up committed as one batch, whether the loop or the final flush writes it |
| Scenarios.SensorRun | src/mq2db/__init__.py:197-227 | with accepting sinks, the run stops with one batch at the URL for the receive time, holding one row, and an empty buffer |

## Left out

- ZeroMQ is not modelled: sockets, subscriptions, `recv` and its 100 ms timeout. Each pass of the loop is given as a `Tick`: a received payload or a timeout, plus the clock reading and the database's behaviour at that moment.
- Loader import by name (`import_module`) is not modelled. A worker takes its loader as a function from payload to records or an exception. `Configure` instantiates the two built-in loaders modelled.
- `JSONLoader` and `TextLoader` are not modelled. JSON parsing and byte decoding are outside the model, and CSV bytes are given by their decoded text.
- CSV quoting, escaping and dialects are not modelled: a line is split at every comma.
- `Pipeline.Items`: the TypeError messages on bytes are given by their wording in CPython; only their kind is stated.
- SQLAlchemy is an abstract sink: whether a connection opens and whether each statement succeeds. A flush is taken to commit all of its statements or none. The engine runs with `AUTOCOMMIT`, so `con.begin()` does not make them one transaction. The init, table and index statements stay in effect when a later one fails. A failing `executemany` may leave some rows committed while the buffer keeps them all, so a later flush can write them again. Whether it does depends on the driver, and the model does not capture it. Nor does it capture the moment after `rows.clear()` at which a commit could still fail.
- Column types are not modelled, nor is SQL execution. A value such as `"12.5"` reaches the sink as text, and the conversion to `REAL` is the database's.
- The sqlite path rewriting and directory creation are not modelled. The URL template is used as configured.
- `datetime.strftime` is a function parameter of the worker. `datetime.now` is not modelled: each received message carries its clock reading.
- `Payload` covers a dict, a list of dicts and bytes. `recv_pyobj` can deliver any other object: a `str`, `None`, a number, a list of non-dicts. The loop body raises TypeError or ValueError on those, empty iterables aside, and they are not modelled.
- Threads, `stop`, `start` and `join` are not modelled. The stop request is the end of the tick sequence.
- Reading and parsing the YAML file is not modelled. `Controller` works on the parsed node tree; the keys of a `Mapping` are taken to be distinct, as in the dict `yaml.safe_load` returns.
- `pprint` in verbose loaders and `traceback.print_exc` are not modelled.
- `Strings.Upper`: only ASCII letters are upper-cased, not the full Unicode case mapping.
- `Controller.Show`: `str()` of a list or dict is reported as `Unrendered` rather than rendered.
- Aliasing is not modelled: `run` writes the auto-columns into the very dict the loader returned. The model builds a new record.
- Dict key order in records and buffered dicts is not modelled (records are maps). The column order of the statements is modelled.
- Explicit nulls in the `database` section are modelled only for `primary_key`. A null `unique` or `indices` behaves as absent, which the model covers. A null `columns`, `init` or `interval` makes `__init__` raise, and that is not modelled.
- Interval components are integers. Fractional timedelta arguments are not modelled.

=== FILE: controller.dfy ===
/**
 * The `Mq2db` controller's pure parts: selecting a sub-section of the loaded YAML
 * configuration by a dotted path (`_get_section`), and the one-line-per-target summary
 * (`__str__`) with its single-line form (`__repr__`).
 */
module Controller {
  import opened Results
  import opened Strings

  /** A YAML document as `yaml.safe_load` returns it. */
  datatype Node =
    | Mapping(entries: seq<(string, Node)>)  // a dict, in document order
    | Sequence(items: seq<Node>)             // a list
    | Text(value: string)                    // a str
    | Scalar(rendered: string)               // a number, boolean, date or None, given by its str()

  /** The value bound to `key` in a dict, if any. */
  function Lookup(entries: seq<(string, Node)>, key: string): (r: Option<Node>)
    ensures r.None? <==> forall i :: 0 <= i < |entries| ==> entries[i].0 != key
    ensures r.Some? ==> (key, r.value) in entries
  {
    if entries == [] then None
    else if entries[0].0 == key then Some(entries[0].1)
    else Lookup(entries[1..], key)
  }

  /** `node[key]`: a dict lookup that raises KeyError on a missing key, TypeError on a non-dict. */
  function Child(node: Node, key: string): (r: Result<Node>)
    ensures node.Mapping? ==> (r.Ok? <==> Lookup(node.entries, key).Some?)
    ensures node.Mapping? && r.Ok? ==> r.value == Lookup(node.entries, key).value
    ensures node.Mapping? && r.Err? ==> r.error == KeyError(key)
    ensures !node.Mapping? ==> r.Err? && r.error.TypeError?
  {
    match node
    case Mapping(entries) =>
      (match Lookup(entries, key)
       case Some(child) => Ok(child)
       case None => Err(KeyError(key)))
    case Sequence(_) => Err(TypeError("list indices must be integers or slices, not str"))
    case Text(_) => Err(TypeError("string indices must be integers, not 'str'"))
    case Scalar(_) => Err(TypeError("object is not subscriptable"))
  }

  /** `conf[path[0]][path[1]]...`, stopping at the first exception. */
  function Descend(node: Node, path: seq<string>): Result<Node>
  {
    if path == [] then Ok(node)
    else
      match Child(node, path[0])
      case Err(e) => Err(e)
      case Ok(child) => Descend(child, path[1..])
  }

  /** Descending along `a + b` is descending along `a`, then along `b` from there. */
  lemma {:induction false} DescendConcat(node: Node, a: seq<string>, b: seq<string>)
    ensures Descend(node, a + b) ==
      (match Descend(node, a)
       case Ok(n) => Descend(n, b)
       case Err(e) => Err(e))
  {
    if a != [] {
      assert (a + b)[0] == a[0] && (a + b)[1..] == a[1..] + b;
      match Child(node, a[0])
      case Err(_) =>
      case Ok(child) => DescendConcat(child, a[1..], b);
    } else {
      assert a + b == b;
    }
  }

  /** A KeyError names one of the keys along the path. */
  lemma {:induction false} DescendKeyError(node: Node, path: seq<string>, key: string)
    requires Descend(node, path) == Err(KeyError(key))
    ensures key in path
  {
    if Child(node, path[0]).Ok? {
      DescendKeyError(Child(node, path[0]).value, path[1..], key);
    }
  }

  /** The sub-configuration a dotted section name such as "mq2db.specific.setting" selects. */
  function Section(conf: Node, section: string): Result<Node>
  {
    Descend(conf, Split(section, '.'))
  }

  /** `Mq2db._get_section`: one lookup per dot-separated part of `section`, in order. */
  method GetSection(conf: Node, section: string) returns (r: Result<Node>)
    ensures r == Section(conf, section)
  {
    var keys := Split(section, '.');
    var node := conf;
    for i := 0 to |keys|
      invariant Descend(node, keys[i..]) == Descend(conf, keys)
    {
      var child := Child(node, keys[i]);
      if child.Err? {
        return Err(child.error);
      }
      node := child.value;
    }
    return Ok(node);
  }

  /** A section name without a dot is a single lookup. */
  lemma SectionWithoutDot(conf: Node, section: string)
    requires '.' !in section
    ensures Section(conf, section) == Child(conf, section)
  {
    SplitWithout(section, '.');
    var path := [section];
    assert path[0] == section && path[1..] == [];
    match Child(conf, section)
    case Err(_) =>
    case Ok(child) => assert Descend(child, path[1..]) == Ok(child);
  }

  /** Selecting "outer.inner" is selecting "inner" within the selection of "outer". */
  lemma SectionsCompose(conf: Node, outer: string, inner: string)
    ensures Section(conf, outer + "." + inner) ==
      (match Section(conf, outer)
       case Ok(n) => Section(n, inner)
       case Err(e) => Err(e))
  {
    SplitAround(outer, inner, '.');
    DescendConcat(conf, Split(outer, '.'), Split(inner, '.'));
  }

  /** `str(value)` in an f-string; the text of a list or dict is not modelled. */
  function Show(node: Node): (r: Result<string>)
    ensures r.Ok? <==> node.Text? || node.Scalar?
    ensures node.Text? ==> r == Ok(node.value)
    ensures node.Scalar? ==> r == Ok(node.rendered)
  {
    match node
    case Text(s) => Ok(s)
    case Scalar(s) => Ok(s)
    case _ => Err(Unrendered)
  }

  /** `each.get(key, default)` on a dict. */
  function Get(entries: seq<(string, Node)>, key: string, default: Node): Node
  {
    match Lookup(entries, key)
    case Some(n) => n
    case None => default
  }

  /** The default type "sub" upper-cased. */
  lemma UpperSub()
    ensures Upper("sub") == "SUB"
  {
    var r := Upper("sub");
    assert r[0] == 'S' && r[1] == 'U' && r[2] == 'B';
  }

  /**
   * The summary line of one target, `"{target}: {addr} ({TYPE}, {method})"`: the address is
   * required, the type defaults to "sub" and is upper-cased, the method defaults to
   * "connect". It fails exactly when the target is not a dict with an address, the type is
   * not a string, or the address or method cannot be shown.
   */
  function TargetLine(target: string, each: Node): (r: Result<string>)
    ensures r.Ok? <==>
      each.Mapping? && Lookup(each.entries, "address").Some? &&
      Get(each.entries, "type", Text("sub")).Text? &&
      Show(Lookup(each.entries, "address").value).Ok? &&
      Show(Get(each.entries, "method", Text("connect"))).Ok?
    ensures r.Ok? ==> |r.value| > |target| + 1 && r.value[..|target| + 2] == target + ": "
    ensures each.Mapping? && Lookup(each.entries, "address").None? ==> r == Err(KeyError("address"))
  {
    match Child(each, "address")
    case Err(e) => Err(e)
    case Ok(addr) =>
      var kind := Get(each.entries, "type", Text("sub"));
      var how := Get(each.entries, "method", Text("connect"));
      if !kind.Text? then Err(AttributeError("object has no attribute 'upper'"))
      else
        match Show(addr)
        case Err(e) => Err(e)
        case Ok(address) =>
          match Show(how)
          case Err(e) => Err(e)
          case Ok(m) =>
            var line := target + ": " + address + " (" + Upper(kind.value) + ", " + m + ")";
            assert line[..|target| + 2] == target + ": ";
            Ok(line)
  }

  /**
   * A target given only its address is shown with the default type, upper-cased, and
   * the default method: `"{target}: {addr} (SUB, connect)"`.
   */
  lemma TargetLineDefaults(target: string, each: Node)
    requires each.Mapping? && Lookup(each.entries, "address").Some?
    requires Show(Lookup(each.entries, "address").value).Ok?
    requires Lookup(each.entries, "type").None? && Lookup(each.entries, "method").None?
    ensures TargetLine(target, each) ==
      Ok(target + ": " + Show(Lookup(each.entries, "address").value).value + " (SUB, connect)")
  {
    assert Child(each, "address") == Ok(Lookup(each.entries, "address").value);
    assert Get(each.entries, "type", Text("sub")) == Text("sub");
    assert Get(each.entries, "method", Text("connect")) == Text("connect");
    var front := target + ": " + Show(Lookup(each.entries, "address").value).value;
    assert TargetLine(target, each) == Ok(front + " (" + Upper("sub") + ", " + "connect" + ")");
    UpperSub();
    assert front + " (" + "SUB" + ", " + "connect" + ")" == front + " (SUB, connect)";
  }

  /** A target given its type and method shows them, the type upper-cased. */
  lemma TargetLineGiven(target: string, each: Node)
    requires each.Mapping? && Lookup(each.entries, "address").Some?
    requires Show(Lookup(each.entries, "address").value).Ok?
    requires Lookup(each.entries, "type").Some? && Lookup(each.entries, "type").value.Text?
    requires Lookup(each.entries, "method").Some? && Show(Lookup(each.entries, "method").value).Ok?
    ensures TargetLine(target, each) ==
      Ok(target + ": " + Show(Lookup(each.entries, "address").value).value +
         " (" + Upper(Lookup(each.entries, "type").value.value) + ", " +
         Show(Lookup(each.entries, "method").value).value + ")")
  {
    assert Child(each, "address") == Ok(Lookup(each.entries, "address").value);
    assert Get(each.entries, "type", Text("sub")) == Lookup(each.entries, "type").value;
    assert Get(each.entries, "method", Text("connect")) == Lookup(each.entries, "method").value;
  }

  /**
   * A target given only one of type and method takes the default for the other: "SUB"
   * when the type is missing, "connect" when the method is.
   */
  lemma TargetLineOneDefault(target: string, each: Node)
    requires each.Mapping? && Lookup(each.entries, "address").Some?
    requires Show(Lookup(each.entries, "address").value).Ok?
    ensures Lookup(each.entries, "type").None? &&
            Lookup(each.entries, "method").Some? && Show(Lookup(each.entries, "method").value).Ok? ==>
      TargetLine(target, each) ==
        Ok(target + ": " + Show(Lookup(each.entries, "address").value).value +
           " (SUB, " + Show(Lookup(each.entries, "method").value).value + ")")
    ensures Lookup(each.entries, "type").Some? && Lookup(each.entries, "type").value.Text? &&
            Lookup(each.entries, "method").None? ==>
      TargetLine(target, each) ==
        Ok(target + ": " + Show(Lookup(each.entries, "address").value).value +
           " (" + Upper(Lookup(each.entries, "type").value.value) + ", connect)")
  {
    var front := target + ": " + Show(Lookup(each.entries, "address").value).value;
    assert Child(each, "address") == Ok(Lookup(each.entries, "address").value);
    if Lookup(each.entries, "type").None? && Lookup(each.entries, "method").Some? &&
       Show(Lookup(each.entries, "method").value).Ok? {
      var m := Show(Lookup(each.entries, "method").value).value;
      assert Get(each.entries, "type", Text("sub")) == Text("sub");
      assert Get(each.entries, "method", Text("connect")) == Lookup(each.entries, "method").value;
      assert TargetLine(target, each) == Ok(front + " (" + Upper("sub") + ", " + m + ")");
      UpperSub();
      assert front + " (" + "SUB" + ", " + m + ")" == front + " (SUB, " + m + ")";
    }
    if Lookup(each.entries, "type").Some? && Lookup(each.entries, "type").value.Text? &&
       Lookup(each.entries, "method").None? {
      var k := Upper(Lookup(each.entries, "type").value.value);
      assert Get(each.entries, "type", Text("sub")) == Lookup(each.entries, "type").value;
      assert Get(each.entries, "method", Text("connect")) == Text("connect");
      assert TargetLine(target, each) == Ok(front + " (" + k + ", " + "connect" + ")");
      assert front + " (" + k + ", " + "connect" + ")" == front + " (" + k + ", connect)";
    }
  }

  /**
   * The lines of all targets, in order: it fails exactly when one target's line fails,
   * and otherwise holds one line per target.
   */
  function TargetLines(targets: seq<(string, Node)>): (r: Result<seq<string>>)
    ensures r.Ok? <==> forall i :: 0 <= i < |targets| ==> TargetLine(targets[i].0, targets[i].1).Ok?
    ensures r.Ok? ==> |r.value| == |targets|
    ensures r.Ok? ==> forall i :: 0 <= i < |targets| ==> Ok(r.value[i]) == TargetLine(targets[i].0, targets[i].1)
  {
    if targets == [] then Ok([])
    else
      var line := TargetLine(targets[0].0, targets[0].1);
      var rest := TargetLines(targets[1..]);
      if line.Err? then Err(line.error)
      else if rest.Err? then Err(rest.error)
      else Ok([line.value] + rest.value)
  }

  /** The exception the lines raise is that of the first target whose line fails. */
  lemma {:induction false} FirstFailingLine(targets: seq<(string, Node)>, i: nat)
    requires i < |targets|
    requires forall k :: 0 <= k < i ==> TargetLine(targets[k].0, targets[k].1).Ok?
    requires TargetLine(targets[i].0, targets[i].1).Err?
    ensures TargetLines(targets) == Err(TargetLine(targets[i].0, targets[i].1).error)
  {
    if i > 0 {
      assert TargetLine(targets[0].0, targets[0].1).Ok?;
      FirstFailingLine(targets[1..], i - 1);
    }
  }

  /** The lines `__str__` joins, or the exception it raises. */
  function Settings(conf: Node): Result<seq<string>>
  {
    match Child(conf, "targets")
    case Err(e) => Err(e)
    case Ok(Mapping(targets)) => TargetLines(targets)
    case Ok(_) => Err(AttributeError("object has no attribute 'items'"))
  }

  /**
   * `Mq2db.__str__`: it succeeds exactly when `targets` is a dict whose every target has
   * a summary line, and gives the empty text for no targets and the line itself for one.
   */
  function Summary(conf: Node): (r: Result<string>)
    ensures r.Ok? <==>
      Child(conf, "targets").Ok? && Child(conf, "targets").value.Mapping? &&
      forall i :: 0 <= i < |Child(conf, "targets").value.entries| ==>
        TargetLine(Child(conf, "targets").value.entries[i].0, Child(conf, "targets").value.entries[i].1).Ok?
    ensures Child(conf, "targets").Err? ==> r == Err(Child(conf, "targets").error)
    ensures Child(conf, "targets").Ok? && !Child(conf, "targets").value.Mapping? ==> r.Err? && r.error.AttributeError?
    ensures Child(conf, "targets").Ok? && Child(conf, "targets").value == Mapping([]) ==> r == Ok("")
    ensures Child(conf, "targets").Ok? && Child(conf, "targets").value.Mapping? &&
            |Child(conf, "targets").value.entries| == 1 && r.Ok? ==>
      var target := Child(conf, "targets").value.entries[0];
      Ok(r.value) == TargetLine(target.0, target.1)
  {
    match Settings(conf)
    case Err(e) => Err(e)
    case Ok(lines) => Ok(Join(lines, "\n"))
  }

  /** The loop of `Mq2db.__str__`: one summary line per target, joined by newlines. */
  method Describe(conf: Node) returns (r: Result<string>)
    ensures r == Summary(conf)
  {
    var targets := Child(conf, "targets");
    if targets.Err? {
      return Err(targets.error);
    }
    if !targets.value.Mapping? {
      return Err(AttributeError("object has no attribute 'items'"));
    }
    var entries := targets.value.entries;
    var settings: seq<string> := [];
    for i := 0 to |entries|
      invariant |settings| == i
      invariant forall k :: 0 <= k < i ==> TargetLine(entries[k].0, entries[k].1) == Ok(settings[k])
    {
      var line := TargetLine(entries[i].0, entries[i].1);
      if line.Err? {
        FirstFailingLine(entries, i);
        return Err(line.error);
      }
      settings := settings + [line.value];
    }
    assert TargetLines(entries) == Ok(settings) by {
      var spec := TargetLines(entries);
      assert forall k :: 0 <= k < |entries| ==> TargetLine(entries[k].0, entries[k].1).Ok?;
      assert spec.Ok?;
      forall k | 0 <= k < |entries| ensures spec.value[k] == settings[k] {
        assert Ok(spec.value[k]) == TargetLine(entries[k].0, entries[k].1);
      }
      assert spec.value == settings;
    }
    return Ok(Join(settings, "\n"));
  }

  /**
   * `Mq2db.__repr__`: the summary's lines joined by "|" inside "Mq2db(...)". It fails
   * exactly when the summary does, with the same exception.
   */
  function Repr(conf: Node): (r: Result<string>)
    ensures r.Ok? <==> Summary(conf).Ok?
    ensures r.Err? ==> r.error == Summary(conf).error
    ensures r.Ok? ==> |r.value| >= 7 && r.value[..6] == "Mq2db(" && r.value[|r.value| - 1] == ')'
  {
    match Summary(conf)
    case Err(e) => Err(e)
    case Ok(s) =>
      var text := "Mq2db(" + Join(SplitLines(s), "|") + ")";
      assert text[..6] == "Mq2db(";
      Ok(text)
  }

  /** Whatever the targets hold, `repr` gives text without a line break. */
  lemma ReprIsOneLine(conf: Node)
    requires Repr(conf).Ok?
    ensures HasNoBreak(Repr(conf).value)
  {
    var body := Join(SplitLines(Summary(conf).value), "|");
    assert HasNoBreak(body) by {
      assert !IsLineBreak("|"[0]);
      JoinHasNoBreak(SplitLines(Summary(conf).value), "|");
    }
    var text := "Mq2db(" + body + ")";
    assert Repr(conf).value == text;
    forall i | 0 <= i < |text| ensures !IsLineBreak(text[i]) {
      if 6 <= i < 6 + |body| {
        assert text[i] == body[i - 6];
      }
    }
  }

  /**
   * When no target line holds a line break (no target name, address or method does),
   * `repr` shows exactly the target lines, separated by "|".
   */
  lemma ReprShowsEveryTarget(conf: Node)
    requires Settings(conf).Ok?
    requires forall i :: 0 <= i < |Settings(conf).value| ==> HasNoBreak(Settings(conf).value[i])
    ensures Repr(conf) == Ok("Mq2db(" + Join(Settings(conf).value, "|") + ")")
  {
    var lines := Settings(conf).value;
    if lines != [] {
      var targets := Child(conf, "targets").value.entries;
      assert Ok(lines[|lines| - 1]) == TargetLine(targets[|lines| - 1].0, targets[|lines| - 1].1);
    }
    SplitLinesJoin(lines);
  }
}

=== FILE: loaders.dfy ===
/**
 * The values a pipeline carries and the built-in loaders that turn a received payload
 * into records: `DictLoader`, which passes a Python dict (or list of dicts) through, and
 * `CSVLoader`, which parses comma-separated text into one dict per data row.
 */
module Loaders {
  import opened Results
  import opened Strings

  /** A Python value held in a record. */
  datatype Value =
    | Null                      // None
    | Str(text: string)
    | Int(number: int)
    | DateTime(micros: int)     // a UTC datetime, as microseconds since the epoch
    | Object(payload: Payload)  // any other object, such as a raw message

  /** What the receive call hands to the loader. */
  datatype Payload =
    | PyDict(fields: map<string, Value>)
    | PyList(items: seq<map<string, Value>>)
    | Bytes(text: string)  // raw bytes, given by their decoding under the loader's encoding

  /** A row as a Python dict from column name to value. */
  type Record = map<string, Value>

  /** The loader a target is configured with, with its construction arguments. */
  datatype Loader = DictLoader | CsvLoader(header: Option<seq<string>>)

  /**
   * What a loader returns: a single record, a list of them, or a bytes object (which
   * `DictLoader` passes through unchanged when it is given one).
   */
  datatype Loaded = Single(record: Record) | Many(records: seq<Record>) | Blob(bytes: string)

  /** The exception `value.strip()` raises when csv.DictReader pads a short row with None. */
  const NoneStrip := AttributeError("'NoneType' object has no attribute 'strip'")

  /** The fields of one line, split at every comma; an empty line has no fields. */
  function Fields(line: string): (fields: seq<string>)
    ensures fields == [] <==> line == []
  {
    if line == [] then [] else Split(line, ',')
  }

  /** The field lists csv.DictReader reads from `lines`, skipping the empty ones. */
  function DataRows(lines: seq<string>): (rows: seq<seq<string>>)
    ensures |rows| <= |lines|
    ensures forall i :: 0 <= i < |rows| ==> rows[i] != []
  {
    if lines == [] then []
    else (if lines[0] == [] then [] else [Fields(lines[0])]) + DataRows(lines[1..])
  }

  /** The data rows of two runs of lines are those of the first, then those of the second. */
  lemma {:induction false} DataRowsConcat(a: seq<string>, b: seq<string>)
    ensures DataRows(a + b) == DataRows(a) + DataRows(b)
  {
    if a == [] {
      assert a + b == b;
    } else {
      assert (a + b)[0] == a[0] && (a + b)[1..] == a[1..] + b;
      DataRowsConcat(a[1..], b);
    }
  }

  /** A blank line gives no row; any other line gives the row of its fields. */
  lemma DataRowsSingle(line: string)
    ensures DataRows([line]) == (if line == [] then [] else [Fields(line)])
  {
    assert [line][1..] == [];
  }

  /**
   * Insert `k := v` into a dict kept as its ordered items: an existing key keeps its
   * place and takes the new value, a new key goes last.
   */
  function Put(items: seq<(string, string)>, k: string, v: string): seq<(string, string)>
  {
    if items == [] then [(k, v)]
    else if items[0].0 == k then [(k, v)] + items[1..]
    else [items[0]] + Put(items[1..], k, v)
  }

  /** Python's `dict(zip(keys, values))` as ordered items. */
  function ZipDict(keys: seq<string>, values: seq<string>): seq<(string, string)>
    requires |keys| == |values|
  {
    if keys == [] then []
    else Put(ZipDict(keys[..|keys| - 1], values[..|values| - 1]), keys[|keys| - 1], values[|values| - 1])
  }

  /**
   * The dict `line_data` built from a row's items by `line_data[key.strip()] = value.strip()`.
   */
  function StripItems(items: seq<(string, string)>): map<string, string>
  {
    if items == [] then map[]
    else StripItems(items[..|items| - 1])[Strip(items[|items| - 1].0) := Strip(items[|items| - 1].1)]
  }

  lemma StripItemsStep(items: seq<(string, string)>, j: nat)
    requires j < |items|
    ensures StripItems(items[..j + 1]) == StripItems(items[..j])[Strip(items[j].0) := Strip(items[j].1)]
  {
    assert items[..j + 1][..j] == items[..j];
  }

  /**
   * An item whose stripped key no later item shares survives in `line_data`: its
   * stripped key maps to its stripped value.
   */
  lemma {:induction false} StripItemsLast(items: seq<(string, string)>, i: nat)
    requires i < |items|
    requires forall j :: i < j < |items| ==> Strip(items[j].0) != Strip(items[i].0)
    ensures Strip(items[i].0) in StripItems(items)
    ensures StripItems(items)[Strip(items[i].0)] == Strip(items[i].1)
  {
    if i < |items| - 1 {
      var init := items[..|items| - 1];
      assert init[i] == items[i];
      StripItemsLast(init, i);
    }
  }

  /** Every key and every value of `line_data` is stripped of surrounding white space. */
  lemma {:induction false} StripItemsStripped(items: seq<(string, string)>)
    ensures forall k :: k in StripItems(items) ==> IsStripped(k) && IsStripped(StripItems(items)[k])
  {
    if items != [] {
      var last := items[|items| - 1];
      StripItemsStripped(items[..|items| - 1]);
      StripStripped(last.0);
      StripStripped(last.1);
    }
  }

  /** Every key of `line_data` is the stripped key of some item. */
  lemma {:induction false} StripItemsSource(items: seq<(string, string)>, k: string) returns (i: nat)
    requires k in StripItems(items)
    ensures i < |items| && Strip(items[i].0) == k
  {
    var init := items[..|items| - 1];
    if k == Strip(items[|items| - 1].0) {
      i := |items| - 1;
    } else {
      i := StripItemsSource(init, k);
      assert init[i] == items[i];
    }
  }

  /** A key not yet in the dict is appended last. */
  lemma {:induction false} PutFresh(items: seq<(string, string)>, k: string, v: string)
    requires forall i :: 0 <= i < |items| ==> items[i].0 != k
    ensures Put(items, k, v) == items + [(k, v)]
  {
    if items != [] {
      PutFresh(items[1..], k, v);
    }
  }

  /** The pairs of `keys` and `values` at equal positions. */
  function Pairs(keys: seq<string>, values: seq<string>): seq<(string, string)>
    requires |keys| == |values|
  {
    seq(|keys|, i requires 0 <= i < |keys| => (keys[i], values[i]))
  }

  predicate Distinct(keys: seq<string>)
  {
    forall i, j :: 0 <= i < j < |keys| ==> keys[i] != keys[j]
  }

  /** With distinct keys, `dict(zip(keys, values))` keeps every pair, in order. */
  lemma {:induction false} ZipDictDistinct(keys: seq<string>, values: seq<string>)
    requires |keys| == |values|
    requires Distinct(keys)
    ensures ZipDict(keys, values) == Pairs(keys, values)
  {
    if keys != [] {
      var n := |keys| - 1;
      ZipDictDistinct(keys[..n], values[..n]);
      PutFresh(Pairs(keys[..n], values[..n]), keys[n], values[n]);
      assert Pairs(keys[..n], values[..n]) + [(keys[n], values[n])] == Pairs(keys, values);
    }
  }

  /**
   * A row whose header names are distinct and whose names and fields carry no
   * surrounding white space becomes the dict from each name to its field.
   */
  lemma RowOfStrippedFields(fieldnames: seq<string>, values: seq<string>)
    requires |fieldnames| == |values|
    requires Distinct(fieldnames)
    requires forall i :: 0 <= i < |values| ==> IsStripped(fieldnames[i]) && IsStripped(values[i])
    ensures RowDict(fieldnames, values).Ok?
    ensures forall k :: k in RowDict(fieldnames, values).value <==> k in fieldnames
    ensures forall i :: 0 <= i < |fieldnames| ==> RowDict(fieldnames, values).value[fieldnames[i]] == values[i]
  {
    var items := Pairs(fieldnames, values);
    ZipDictDistinct(fieldnames, values);
    var d := StripItems(items);
    forall i | 0 <= i < |items|
      ensures fieldnames[i] in d && d[fieldnames[i]] == values[i]
    {
      StripUnique("", fieldnames[i], "");
      StripUnique("", values[i], "");
      assert "" + fieldnames[i] + "" == fieldnames[i];
      assert "" + values[i] + "" == values[i];
      forall j | i < j < |items| ensures Strip(items[j].0) != Strip(items[i].0) {
        StripUnique("", fieldnames[j], "");
        assert "" + fieldnames[j] + "" == fieldnames[j];
      }
      StripItemsLast(items, i);
    }
    forall k | k in d ensures k in fieldnames {
      var i := StripItemsSource(items, k);
      StripUnique("", fieldnames[i], "");
      assert "" + fieldnames[i] + "" == fieldnames[i];
    }
  }

  /** One data row as a stripped dict; a row whose width is not the header's raises. */
  function RowDict(fieldnames: seq<string>, row: seq<string>): Result<map<string, string>>
  {
    if |row| != |fieldnames| then Err(NoneStrip)
    else Ok(StripItems(ZipDict(fieldnames, row)))
  }

  /**
   * The dicts of all data rows, in order: it fails exactly when some row's width differs
   * from the header's, and otherwise holds one dict per row.
   */
  function CsvTable(fieldnames: seq<string>, rows: seq<seq<string>>): (r: Result<seq<map<string, string>>>)
    ensures r.Ok? <==> forall i :: 0 <= i < |rows| ==> |rows[i]| == |fieldnames|
    ensures r.Err? ==> r == Err(NoneStrip)
    ensures r.Ok? ==> |r.value| == |rows|
    ensures r.Ok? ==> forall i :: 0 <= i < |rows| ==> Ok(r.value[i]) == RowDict(fieldnames, rows[i])
  {
    if rows == [] then Ok([])
    else
      match RowDict(fieldnames, rows[0])
      case Err(e) => Err(e)
      case Ok(d) =>
        match CsvTable(fieldnames, rows[1..])
        case Err(e) => Err(e)
        case Ok(rest) => Ok([d] + rest)
  }

  /** The header csv.DictReader uses and the lines that hold data. */
  function Layout(lines: seq<string>, header: Option<seq<string>>): (seq<string>, seq<string>)
  {
    match header
    case Some(h) => (h, lines)
    case None => if lines == [] then ([], []) else (Fields(lines[0]), lines[1..])
  }

  /**
   * What `CSVLoader(header=header)` returns for text `text`: the table of the non-blank
   * lines under the given header, or, when none is given, of the non-blank lines after
   * the first under the first line's fields. Text without lines gives no records, and
   * the only exception is the one a row of the wrong width raises.
   */
  function CsvRecords(text: string, header: Option<seq<string>>): (r: Result<seq<map<string, string>>>)
    ensures header.Some? ==> r == CsvTable(header.value, DataRows(SplitLines(text)))
    ensures header.None? && SplitLines(text) != [] ==>
      r == CsvTable(Fields(SplitLines(text)[0]), DataRows(SplitLines(text)[1..]))
    ensures r.Err? ==> r == Err(NoneStrip)
    ensures SplitLines(text) == [] ==> r == Ok([])
    ensures header.Some? ==>
      (r.Ok? <==> forall i :: 0 <= i < |DataRows(SplitLines(text))| ==> |DataRows(SplitLines(text))[i]| == |header.value|)
    ensures header.Some? && r.Ok? ==> |r.value| == |DataRows(SplitLines(text))|
  {
    var layout := Layout(SplitLines(text), header);
    CsvTable(layout.0, DataRows(layout.1))
  }

  lemma CommaIsNoBreak()
    ensures HasNoBreak(",")
  {
    assert !IsLineBreak(',');
  }

  /** Fields joined by commas, the first one non-empty, are non-empty text. */
  lemma JoinedNonEmpty(values: seq<string>)
    requires |values| > 0 && values[0] != []
    ensures Join(values, ",") != []
  {
    if |values| > 1 {
      assert Join(values, ",") == values[0] + "," + Join(values[1..], ",");
    }
  }

  /** Comma-separated fields without line breaks are one line of text. */
  lemma OneLine(values: seq<string>)
    requires |values| > 0 && values[0] != []
    requires forall i :: 0 <= i < |values| ==> HasNoBreak(values[i])
    ensures SplitLines(Join(values, ",")) == [Join(values, ",")]
  {
    JoinedNonEmpty(values);
    CommaIsNoBreak();
    JoinHasNoBreak(values, ",");
    SingleLine(Join(values, ","));
  }

  /** A line of comma-separated fields, none holding a comma, is read back as those fields. */
  lemma OneDataRow(values: seq<string>)
    requires |values| > 0 && values[0] != []
    requires forall i :: 0 <= i < |values| ==> ',' !in values[i]
    ensures DataRows([Join(values, ",")]) == [values]
  {
    var line := Join(values, ",");
    JoinedNonEmpty(values);
    SplitJoin(values, ',');
    assert Fields(line) == values;
    assert [line][1..] == [];
  }

  /**
   * Text holding a single line of comma-separated fields, read with a given header, is
   * one record when the widths agree, and raises otherwise.
   */
  lemma CsvSingleLine(fieldnames: seq<string>, values: seq<string>)
    requires |values| > 0 && values[0] != []
    requires forall i :: 0 <= i < |values| ==> ',' !in values[i] && HasNoBreak(values[i])
    ensures CsvRecords(Join(values, ","), Some(fieldnames)) ==
      (if |values| == |fieldnames| then Ok([StripItems(ZipDict(fieldnames, values))]) else Err(NoneStrip))
  {
    var line := Join(values, ",");
    OneLine(values);
    OneDataRow(values);
    assert Layout([line], Some(fieldnames)) == (fieldnames, [line]);
    assert CsvRecords(line, Some(fieldnames)) == CsvTable(fieldnames, [values]);
    assert [values][1..] == [];
    if |values| == |fieldnames| {
      var d := StripItems(ZipDict(fieldnames, values));
      assert RowDict(fieldnames, values) == Ok(d);
      assert CsvTable(fieldnames, [values][1..]) == Ok([]);
      assert [d] + [] == [d];
      assert CsvTable(fieldnames, [values]) == Ok([d]);
    } else {
      assert RowDict(fieldnames, values) == Err(NoneStrip);
    }
  }

  /** The inner loop of `CSVLoader.__call__`: strip every key and value of one row's items. */
  method StripRow(items: seq<(string, string)>) returns (lineData: map<string, string>)
    ensures lineData == StripItems(items)
  {
    lineData := map[];
    for j := 0 to |items|
      invariant lineData == StripItems(items[..j])
    {
      StripItemsStep(items, j);
      lineData := lineData[Strip(items[j].0) := Strip(items[j].1)];
    }
    assert items[..|items|] == items;
  }

  /** The outer loop of `CSVLoader.__call__`: one stripped dict per data row, in order. */
  method StripRows(fieldnames: seq<string>, rows: seq<seq<string>>) returns (r: Result<seq<map<string, string>>>)
    ensures r == CsvTable(fieldnames, rows)
  {
    var result: seq<map<string, string>> := [];
    for i := 0 to |rows|
      invariant |result| == i
      invariant forall k :: 0 <= k < i ==> RowDict(fieldnames, rows[k]) == Ok(result[k])
    {
      if |rows[i]| != |fieldnames| {
        return Err(NoneStrip);
      }
      var lineData := StripRow(ZipDict(fieldnames, rows[i]));
      result := result + [lineData];
    }
    var spec := CsvTable(fieldnames, rows);
    assert forall k :: 0 <= k < |rows| ==> |rows[k]| == |fieldnames| by {
      forall k | 0 <= k < |rows| ensures |rows[k]| == |fieldnames| {
        assert RowDict(fieldnames, rows[k]).Ok?;
      }
    }
    assert spec.value == result by {
      forall k | 0 <= k < |rows| ensures spec.value[k] == result[k] {
        assert Ok(spec.value[k]) == RowDict(fieldnames, rows[k]);
      }
    }
    return Ok(result);
  }

  /** `CSVLoader.__call__` on decoded text. */
  method LoadCsv(text: string, header: Option<seq<string>>) returns (r: Result<seq<map<string, string>>>)
    ensures r == CsvRecords(text, header)
  {
    var layout := Layout(SplitLines(text), header);
    r := StripRows(layout.0, DataRows(layout.1));
  }

  /** A CSV dict as a record of strings. */
  function AsRecord(d: map<string, string>): (r: Record)
    ensures r.Keys == d.Keys
    ensures forall k :: k in d ==> r[k] == Str(d[k])
  {
    map k | k in d :: Str(d[k])
  }

  /**
   * The configured loader applied to a payload. `DictLoader` hands back whatever it is
   * given and never raises. `CSVLoader` decodes bytes into one record per data row, and
   * anything else has no `decode` method.
   */
  function Load(loader: Loader, data: Payload): (r: Result<Loaded>)
    ensures loader.DictLoader? ==> r == Ok(match data
                                          case PyDict(m) => Single(m)
                                          case PyList(items) => Many(items)
                                          case Bytes(text) => Blob(text))
    ensures loader.CsvLoader? && !data.Bytes? ==> r.Err? && r.error.AttributeError?
    ensures loader.CsvLoader? && data.Bytes? ==> (r.Ok? <==> CsvRecords(data.text, loader.header).Ok?)
    ensures loader.CsvLoader? && data.Bytes? && r.Ok? ==>
      var rows := CsvRecords(data.text, loader.header).value;
      r.value.Many? && |r.value.records| == |rows| &&
      forall i :: 0 <= i < |rows| ==> r.value.records[i] == AsRecord(rows[i])
    ensures loader.CsvLoader? && data.Bytes? && r.Err? ==> r == Err(NoneStrip)
  {
    match loader
    case DictLoader =>
      (match data
       case PyDict(m) => Ok(Single(m))
       case PyList(items) => Ok(Many(items))
       case Bytes(text) => Ok(Blob(text)))
    case CsvLoader(header) =>
      (match data
       case Bytes(text) =>
         (match CsvRecords(text, header)
          case Ok(rows) => Ok(Many(seq(|rows|, i requires 0 <= i < |rows| => AsRecord(rows[i]))))
          case Err(e) => Err(e))
       case _ => Err(AttributeError("object has no attribute 'decode'")))
  }
}

=== FILE: pipeline.dfy ===
/**
 * The per-target pipeline of `_Worker.run` as a state machine over values: records are
 * normalised and buffered in arrival order, and the buffer is flushed to the sink when
 * the interval has elapsed after a receive, and once more when the worker stops.
 */
module Pipeline {
  import opened Results
  import opened Schema
  import opened Loaders

  /** `int(now.timestamp())` for a time in microseconds: whole seconds, truncated toward zero. */
  function EpochSeconds(micros: int): (seconds: int)
    ensures micros >= 0 ==> seconds * 1000000 <= micros < (seconds + 1) * 1000000
    ensures micros < 0 ==> (seconds - 1) * 1000000 < micros <= seconds * 1000000
  {
    if micros >= 0 then micros / 1000000 else -((-micros) / 1000000)
  }

  /** The keys the enabled auto-columns add to every record. */
  function AutoKeys(c: TableConfig): set<string>
  {
    (if c.datetime then {DatetimeColumn} else {}) +
    (if c.timestamp then {TimestampColumn} else {}) +
    (if c.raw then {RawColumn} else {})
  }

  /** The decoded record with the enabled auto-columns set, as the loop body sets them. */
  function Stamp(c: TableConfig, each: Record, now: int, data: Payload): (r: Record)
    ensures r.Keys == each.Keys + AutoKeys(c)
    ensures c.datetime ==> r[DatetimeColumn] == DateTime(now)
    ensures c.timestamp ==> r[TimestampColumn] == Int(EpochSeconds(now))
    ensures c.raw ==> r[RawColumn] == Object(data)
    ensures forall k :: k in each && k !in AutoKeys(c) ==> r[k] == each[k]
  {
    var r1 := if c.datetime then each[DatetimeColumn := DateTime(now)] else each;
    var r2 := if c.timestamp then r1[TimestampColumn := Int(EpochSeconds(now))] else r1;
    if c.raw then r2[RawColumn := Object(data)] else r2
  }

  /**
   * The dict appended to `rows` for one decoded record: `None` for every configured
   * column, overlaid with the stamped record. It has a key for every configured column
   * and every decoded key (unknown ones are kept); the auto-columns hold the receive
   * time and payload; decoded values win over the defaults.
   */
  function NormalizeRecord(c: TableConfig, each: Record, now: int, data: Payload): (r: Record)
    ensures r.Keys == each.Keys + (set k | k in ColumnNames(c)) + AutoKeys(c)
    ensures c.datetime ==> r[DatetimeColumn] == DateTime(now)
    ensures c.timestamp ==> r[TimestampColumn] == Int(EpochSeconds(now))
    ensures c.raw ==> r[RawColumn] == Object(data)
    ensures forall k :: k in each && k !in AutoKeys(c) ==> r[k] == each[k]
    ensures forall k :: k in ColumnNames(c) && k !in each && k !in AutoKeys(c) ==> r[k] == Value.Null
    ensures forall j :: 0 <= j < |InsertColumns(c)| ==> InsertColumns(c)[j] in r
  {
    var defaults := map k | k in ColumnNames(c) :: Value.Null;
    InsertColumnsCovered(c);
    defaults + Stamp(c, each, now, data)
  }

  /** Every insert column is a configured column or an enabled auto-column. */
  lemma InsertColumnsCovered(c: TableConfig)
    ensures forall j :: 0 <= j < |InsertColumns(c)| ==>
      InsertColumns(c)[j] in ColumnNames(c) || InsertColumns(c)[j] in AutoKeys(c)
  {
    forall j | 0 <= j < |InsertColumns(c)|
      ensures InsertColumns(c)[j] in ColumnNames(c) || InsertColumns(c)[j] in AutoKeys(c)
    {
      if j >= |ColumnNames(c)| {
        var autos := InsertColumns(c)[|ColumnNames(c)|..];
        assert InsertColumns(c)[j] in autos;
      } else {
        assert InsertColumns(c)[j] == ColumnNames(c)[j];
      }
    }
  }

  /**
   * The list `run` iterates over for one loader result, or the exception its loop body
   * raises on a bytes object before anything is appended: setting an auto-column on
   * bytes fails, and `dict_repr.update` fails on non-empty bytes but accepts empty ones.
   */
  function Items(c: TableConfig, loaded: Loaded): (r: Result<seq<Record>>)
    ensures loaded.Single? ==> r == Ok([loaded.record])
    ensures loaded.Many? ==> r == Ok(loaded.records)
    ensures loaded.Blob? ==> (r.Ok? <==> loaded.bytes == [] && AutoKeys(c) == {})
    ensures loaded.Blob? && r.Ok? ==> r.value == [map[]]
    ensures r.Err? ==> r.error.TypeError?
  {
    match loaded
    case Single(record) => Ok([record])
    case Many(records) => Ok(records)
    case Blob(bytes) =>
      if AutoKeys(c) != {} then Err(TypeError("'bytes' object does not support item assignment"))
      else if bytes != [] then Err(TypeError("cannot convert dictionary update sequence element #0 to a sequence"))
      else Ok([map[]])
  }

  function NormalizeAll(c: TableConfig, items: seq<Record>, now: int, data: Payload): seq<Record>
  {
    seq(|items|, i requires 0 <= i < |items| => NormalizeRecord(c, items[i], now, data))
  }

  /**
   * The database as seen from one flush: whether the connection to a URL opens, and
   * whether executing a statement with given parameters succeeds.
   */
  datatype Sink = Sink(connects: string -> bool, accepts: (string, string, seq<Record>) -> bool)

  /**
   * What a worker fixes before its loop: its configuration, the loader it calls on every
   * payload, how it formats the URL template for a time (`datetime.strftime`), and the
   * statements it synthesised: those run before the insert, in order, and the insert.
   */
  datatype Setup = Setup(
    config: TableConfig,
    load: Payload -> Result<Loaded>,
    strftime: (string, int) -> string,
    script: seq<string>,
    insert: string)

  /** The statements executed before the insert, in order: init, table, indices. */
  function Script(c: TableConfig): seq<string>
  {
    c.init + [TableSql(c)] + IndexStatements(c)
  }

  /** A worker for `config` using one of the built-in loaders. */
  function Configure(config: TableConfig, loader: Loader, strftime: (string, int) -> string): Setup
  {
    Setup(config, data => Load(loader, data), strftime, Script(config), InsertSql(config))
  }

  /** The rows one successful flush committed, and where. */
  datatype Batch = Batch(url: string, rows: seq<Record>)

  /** The worker's loop state, with what the sink has durably received so far. */
  datatype State = State(rows: seq<Record>, prev: int, now: int, written: seq<Batch>)

  /** Whether a flush of `rows` to `url` runs every statement without an exception. */
  predicate Commits(s: Setup, url: string, rows: seq<Record>, sink: Sink)
  {
    sink.connects(url) &&
    (forall i :: 0 <= i < |s.script| ==> sink.accepts(url, s.script[i], [])) &&
    sink.accepts(url, s.insert, rows)
  }

  /** All rows in the order the sink received them. */
  function Flatten(batches: seq<Batch>): seq<Record>
  {
    if batches == [] then [] else Flatten(batches[..|batches| - 1]) + batches[|batches| - 1].rows
  }

  /** Every row received so far: the committed ones, then the buffered ones. */
  function Received(st: State): seq<Record>
  {
    Flatten(st.written) + st.rows
  }

  /** The URL a flush at time `now` connects to. */
  function UrlAt(s: Setup, now: int): string
  {
    s.strftime(s.config.url, now)
  }

  /**
   * `flush(now, rows)`: nothing to do on an empty buffer; otherwise the buffer goes to the
   * URL for `now` as one batch and is cleared, or, when a statement fails, the buffer
   * stays. Against a sink that commits all of a flush or none of it, as `Commits`
   * describes, no row is then lost or duplicated.
   */
  function Flushed(s: Setup, st: State, sink: Sink): (r: (bool, State))
    ensures st.rows == [] ==> r == (true, st)
    ensures r.0 && st.rows != [] ==>
      r.1 == st.(rows := [], written := st.written + [Batch(UrlAt(s, st.now), st.rows)])
    ensures !r.0 ==> r.1 == st && st.rows != []
    ensures r.0 <==> st.rows == [] || Commits(s, UrlAt(s, st.now), st.rows, sink)
    ensures Received(r.1) == Received(st)
  {
    if st.rows == [] then (true, st)
    else
      var url := UrlAt(s, st.now);
      if Commits(s, url, st.rows, sink) then
        var st' := st.(rows := [], written := st.written + [Batch(url, st.rows)]);
        assert Flatten(st'.written) == Flatten(st.written) + st.rows by {
          assert st'.written[..|st'.written| - 1] == st.written;
        }
        (true, st')
      else (false, st)
  }

  /** What one pass of the receive loop sees: a message or a timeout, the clock, the sink. */
  datatype Message = Timeout | Arrived(data: Payload)
  datatype Tick = Tick(received: Message, clock: int, sink: Sink)

  /** The loop either runs on or has ended with the exception a loader raised. */
  datatype Progress = Running(st: State) | Crashed(st: State, error: Error)

  /** The records of one payload, or the exception the loader or the loop body raises. */
  function Unpack(s: Setup, data: Payload): Result<seq<Record>>
  {
    match s.load(data)
    case Err(e) => Err(e)
    case Ok(loaded) => Items(s.config, loaded)
  }

  /** The normalised records one tick adds to the buffer. */
  function Decoded(s: Setup, t: Tick): seq<Record>
  {
    match t.received
    case Timeout => []
    case Arrived(data) =>
      match Unpack(s, data)
      case Ok(items) => NormalizeAll(s.config, items, t.clock, data)
      case Err(_) => []
  }

  /**
   * The dict loader passes bytes through unchanged: empty bytes under a table without
   * auto-columns give one row holding `None` in every configured column, and any other
   * bytes, or any enabled auto-column, make the loop body raise a TypeError.
   */
  lemma DictLoaderOnBytes(config: TableConfig, strftime: (string, int) -> string, text: string, clock: int, sink: Sink)
    ensures var s := Configure(config, DictLoader, strftime);
      Unpack(s, Bytes(text)).Ok? <==> text == [] && AutoKeys(config) == {}
    ensures var s := Configure(config, DictLoader, strftime);
      Unpack(s, Bytes(text)).Err? ==> Unpack(s, Bytes(text)).error.TypeError?
    ensures var s := Configure(config, DictLoader, strftime);
      text == [] && AutoKeys(config) == {} ==>
        Decoded(s, Tick(Arrived(Bytes(text)), clock, sink)) == [map k | k in ColumnNames(config) :: Value.Null]
  {
    var s := Configure(config, DictLoader, strftime);
    assert s.load(Bytes(text)) == Ok(Blob(text));
    if text == [] && AutoKeys(config) == {} {
      var r := NormalizeRecord(config, map[], clock, Bytes(text));
      assert r == map k | k in ColumnNames(config) :: Value.Null;
    }
  }

  /**
   * The flush check after a receive: when more than the interval has passed since `prev`,
   * flush; `prev` moves to `now` only when the flush returns. A failed flush leaves the
   * state as it was, so the next receive tries again.
   */
  function Check(s: Setup, st: State, sink: Sink): (q: State)
    ensures st.now - st.prev <= IntervalMicros(s.config) ==> q == st
    ensures st.now - st.prev > IntervalMicros(s.config) && (st.rows == [] || Commits(s, UrlAt(s, st.now), st.rows, sink)) ==>
      q.prev == st.now && q.rows == []
    ensures st.now - st.prev > IntervalMicros(s.config) && st.rows != [] && !Commits(s, UrlAt(s, st.now), st.rows, sink) ==>
      q == st
    ensures st.rows == [] ==> q.written == st.written
    ensures Received(q) == Received(st) && q.now == st.now
    ensures q.prev == st.prev || (q.prev == st.now && q.rows == [])
    ensures q.written != st.written ==>
      st.now - st.prev > IntervalMicros(s.config) && q.rows == [] &&
      q.written == st.written + [Batch(UrlAt(s, st.now), st.rows)]
    ensures q.written == st.written ==> q.rows == st.rows
  {
    if st.now - st.prev > IntervalMicros(s.config) then
      var flushed := Flushed(s, st, sink);
      if flushed.0 then flushed.1.(prev := st.now) else flushed.1
    else st
  }

  /**
   * One pass of the `while` loop in `run`. A timeout changes nothing and skips the flush
   * check. A message sets `now` and has its records appended, unless the loader or the
   * loop body raises, which ends the loop. Then comes the flush check: when more than
   * the interval has passed since `prev` and the flush returns, the buffer is empty and
   * `prev` is the receive time; when it is not yet due, nothing else changes.
   */
  function Iterate(s: Setup, p: Progress, t: Tick): (q: Progress)
    ensures p.Crashed? || t.received.Timeout? ==> q == p
    ensures q.Running? ==> p.Running?
    ensures p.Running? && t.received.Arrived? ==> (q.Crashed? <==> Unpack(s, t.received.data).Err?)
    ensures q.Crashed? && p.Running? ==>
      t.received.Arrived? && Unpack(s, t.received.data) == Err(q.error) && q.st == p.st.(now := t.clock)
    ensures p.Running? && t.received.Arrived? && q.Running? ==>
      var rows := p.st.rows + Decoded(s, t);
      if t.clock - p.st.prev <= IntervalMicros(s.config) then q.st == p.st.(rows := rows, now := t.clock)
      else if rows == [] || Commits(s, UrlAt(s, t.clock), rows, t.sink) then q.st.rows == [] && q.st.prev == t.clock
      else q.st == p.st.(rows := rows, now := t.clock)
  {
    match p
    case Crashed(_, _) => p
    case Running(st) =>
      match t.received
      case Timeout => p
      case Arrived(data) =>
        var unpacked := Unpack(s, data);
        if unpacked.Err? then Crashed(st.(now := t.clock), unpacked.error)
        else Running(Check(s, st.(rows := st.rows + Decoded(s, t), now := t.clock), t.sink))
  }

  lemma NormalizeAllStep(c: TableConfig, items: seq<Record>, j: nat, now: int, data: Payload)
    requires j < |items|
    ensures NormalizeAll(c, items[..j + 1], now, data) ==
      NormalizeAll(c, items[..j], now, data) + [NormalizeRecord(c, items[j], now, data)]
  {
    assert items[..j + 1][j] == items[j];
  }

  /**
   * A pass that keeps the loop running adds exactly the message's records to what was
   * received; `prev` only moves to the receive time, after a flush that emptied the
   * buffer; and a batch is written only after a message that came more than the
   * interval after `prev`, holding the whole buffer, and never for an empty buffer.
   */
  lemma IterateKeepsOrder(s: Setup, p: Progress, t: Tick)
    requires Iterate(s, p, t).Running?
    ensures var q := Iterate(s, p, t);
      Received(q.st) == Received(p.st) + Decoded(s, t) &&
      (q.st.prev == p.st.prev || (q.st.prev == t.clock && q.st.rows == []))
    ensures var q := Iterate(s, p, t);
      q.st.written != p.st.written ==>
        t.received.Arrived? && t.clock - p.st.prev > IntervalMicros(s.config) && q.st.rows == [] &&
        q.st.written == p.st.written + [Batch(UrlAt(s, t.clock), p.st.rows + Decoded(s, t))]
    ensures p.st.rows + Decoded(s, t) == [] ==> Iterate(s, p, t).st.written == p.st.written
  {
    if t.received.Arrived? {
      var st1 := p.st.(rows := p.st.rows + Decoded(s, t), now := t.clock);
      assert Iterate(s, p, t) == Running(Check(s, st1, t.sink));
    }
  }

  /** The loop state after the given passes, the last one applied last. */
  function Steps(s: Setup, p: Progress, ticks: seq<Tick>): Progress
  {
    if ticks == [] then p
    else Iterate(s, Steps(s, p, ticks[..|ticks| - 1]), ticks[|ticks| - 1])
  }

  /** The records all the given passes decode, in arrival order. */
  function Ingested(s: Setup, ticks: seq<Tick>): seq<Record>
  {
    if ticks == [] then []
    else Ingested(s, ticks[..|ticks| - 1]) + Decoded(s, ticks[|ticks| - 1])
  }

  /** How `run` ends: after the final flush, which may itself raise, or with a loader's exception. */
  datatype Ending = Stopped(flushed: bool) | Aborted(error: Error)

  function Start(start: int, written: seq<Batch>): State
  {
    State([], start, start, written)
  }

  /**
   * `run`: the loop passes until stop is requested, then one unconditional flush at the
   * last `now`. An exception in the loop leaves it without that final flush. The final
   * flush succeeds exactly when the buffer is empty or every statement succeeds; it then
   * commits the whole buffer as the last batch, and otherwise leaves the state as it was.
   */
  function Run(s: Setup, start: int, written: seq<Batch>, ticks: seq<Tick>, finalSink: Sink): (r: (Ending, State))
    ensures var p := Steps(s, Running(Start(start, written)), ticks);
      (r.0.Aborted? <==> p.Crashed?) && (p.Crashed? ==> r.0.error == p.error && r.1 == p.st)
    ensures var p := Steps(s, Running(Start(start, written)), ticks);
      p.Running? ==>
        (r.0.flushed <==> p.st.rows == [] || Commits(s, UrlAt(s, p.st.now), p.st.rows, finalSink)) &&
        (r.0.flushed ==> r.1.rows == []) &&
        (r.0.flushed ==>
           r.1.written == p.st.written + (if p.st.rows == [] then [] else [Batch(UrlAt(s, p.st.now), p.st.rows)])) &&
        (!r.0.flushed ==> r.1 == p.st)
    ensures var p := Steps(s, Running(Start(start, written)), ticks);
      p.Running? ==> Received(r.1) == Received(p.st)
  {
    match Steps(s, Running(Start(start, written)), ticks)
    case Crashed(st, e) => (Aborted(e), st)
    case Running(st) =>
      var flushed := Flushed(s, st, finalSink);
      (Stopped(flushed.0), flushed.1)
  }

  /** A loader exception ends the loop for good: later passes change nothing. */
  lemma {:induction false} CrashIsFinal(s: Setup, p: Progress, ticks: seq<Tick>, k: nat)
    requires k <= |ticks|
    requires Steps(s, p, ticks[..k]).Crashed?
    ensures Steps(s, p, ticks) == Steps(s, p, ticks[..k])
  {
    if k < |ticks| {
      var init := ticks[..|ticks| - 1];
      assert init[..k] == ticks[..k];
      CrashIsFinal(s, p, init, k);
    } else {
      assert ticks[..k] == ticks;
    }
  }

  /**
   * A run aborts at the first message whose records cannot be unpacked, with that
   * exception, keeping the batches committed until then and skipping the final flush.
   */
  lemma RunAbortsAtFailure(s: Setup, start: int, written: seq<Batch>, ticks: seq<Tick>, finalSink: Sink, k: nat)
    requires k < |ticks|
    requires Steps(s, Running(Start(start, written)), ticks[..k]).Running?
    requires ticks[k].received.Arrived? && Unpack(s, ticks[k].received.data).Err?
    ensures Run(s, start, written, ticks, finalSink).0 == Aborted(Unpack(s, ticks[k].received.data).error)
    ensures Run(s, start, written, ticks, finalSink).1 ==
      Steps(s, Running(Start(start, written)), ticks[..k]).st.(now := ticks[k].clock)
  {
    var first := Running(Start(start, written));
    assert ticks[..k + 1][..k] == ticks[..k];
    assert Steps(s, first, ticks[..k + 1]) == Iterate(s, Steps(s, first, ticks[..k]), ticks[k]);
    CrashIsFinal(s, first, ticks, k + 1);
  }

  /** Passes over messages whose records all unpack never end the loop. */
  lemma {:induction false} StepsWithoutFailure(s: Setup, st: State, ticks: seq<Tick>)
    requires forall i :: 0 <= i < |ticks| && ticks[i].received.Arrived? ==> Unpack(s, ticks[i].received.data).Ok?
    ensures Steps(s, Running(st), ticks).Running?
  {
    if ticks != [] {
      var init := ticks[..|ticks| - 1];
      assert forall i :: 0 <= i < |init| ==> init[i] == ticks[i];
      StepsWithoutFailure(s, st, init);
    }
  }

  /** Without such a message the run is never aborted: it stops after the final flush. */
  lemma RunStopsWithoutFailure(s: Setup, start: int, written: seq<Batch>, ticks: seq<Tick>, finalSink: Sink)
    requires forall i :: 0 <= i < |ticks| && ticks[i].received.Arrived? ==> Unpack(s, ticks[i].received.data).Ok?
    ensures Run(s, start, written, ticks, finalSink).0.Stopped?
  {
    StepsWithoutFailure(s, Start(start, written), ticks);
  }

  /**
   * Nothing received is lost, duplicated or reordered while the loop runs: the rows the
   * sink holds followed by the buffer are the records of all messages in arrival order.
   */
  lemma {:induction false} StepsKeepEveryRecord(s: Setup, st: State, ticks: seq<Tick>)
    requires Steps(s, Running(st), ticks).Running?
    ensures Received(Steps(s, Running(st), ticks).st) == Received(st) + Ingested(s, ticks)
  {
    if ticks != [] {
      var init := ticks[..|ticks| - 1];
      StepsKeepEveryRecord(s, st, init);
      IterateKeepsOrder(s, Steps(s, Running(st), init), ticks[|ticks| - 1]);
    }
  }

  /**
   * Once `run` has stopped, the committed rows and the buffer hold every record received,
   * in order; the buffer ends empty, and the sink has them all, exactly when the final
   * flush returns.
   */
  lemma RunDeliversEveryRecord(s: Setup, start: int, written: seq<Batch>, ticks: seq<Tick>, finalSink: Sink)
    requires Run(s, start, written, ticks, finalSink).0.Stopped?
    ensures Received(Run(s, start, written, ticks, finalSink).1) == Flatten(written) + Ingested(s, ticks)
    ensures Run(s, start, written, ticks, finalSink).0.flushed <==> Run(s, start, written, ticks, finalSink).1.rows == []
  {
    StepsKeepEveryRecord(s, Start(start, written), ticks);
    RunEndsEmpty(s, start, written, ticks, finalSink);
  }

  /** A stopped run ends with an empty buffer exactly when its final flush returned. */
  lemma RunEndsEmpty(s: Setup, start: int, written: seq<Batch>, ticks: seq<Tick>, finalSink: Sink)
    requires Run(s, start, written, ticks, finalSink).0.Stopped?
    ensures Run(s, start, written, ticks, finalSink).0.flushed <==> Run(s, start, written, ticks, finalSink).1.rows == []
  {
    var p := Steps(s, Running(Start(start, written)), ticks);
    var flushed := Flushed(s, p.st, finalSink);
    assert flushed.0 <==> flushed.1.rows == [];
    assert Run(s, start, written, ticks, finalSink) == (Stopped(flushed.0), flushed.1);
  }

  /** Every row the pipeline buffers or commits has a value for every insert placeholder. */
  predicate BindsInsert(c: TableConfig, rows: seq<Record>)
  {
    forall i, j :: 0 <= i < |rows| && 0 <= j < |InsertColumns(c)| ==> InsertColumns(c)[j] in rows[i]
  }

  lemma {:induction false} IngestedBinds(s: Setup, ticks: seq<Tick>)
    ensures BindsInsert(s.config, Ingested(s, ticks))
  {
    if ticks != [] {
      var init := Ingested(s, ticks[..|ticks| - 1]);
      var last := Decoded(s, ticks[|ticks| - 1]);
      IngestedBinds(s, ticks[..|ticks| - 1]);
      assert BindsInsert(s.config, last) by {
        DecodedBinds(s, ticks[|ticks| - 1]);
      }
      forall i, j | 0 <= i < |init + last| && 0 <= j < |InsertColumns(s.config)|
        ensures InsertColumns(s.config)[j] in (init + last)[i]
      {
        if i >= |init| {
          assert (init + last)[i] == last[i - |init|];
        }
      }
    }
  }

  /** The rows one message adds are bound. */
  lemma DecodedBinds(s: Setup, t: Tick)
    ensures BindsInsert(s.config, Decoded(s, t))
  {
    var rows := Decoded(s, t);
    forall i, j | 0 <= i < |rows| && 0 <= j < |InsertColumns(s.config)|
      ensures InsertColumns(s.config)[j] in rows[i]
    {
      var items := Unpack(s, t.received.data).value;
      assert rows[i] == NormalizeRecord(s.config, items[i], t.clock, t.received.data);
    }
  }

  /**
   * A run that starts from bound rows only ever holds bound rows, so every insert the
   * sink executes finds a value for each of its placeholders.
   */
  lemma StepsBindInsert(s: Setup, st: State, ticks: seq<Tick>)
    requires BindsInsert(s.config, Received(st))
    requires Steps(s, Running(st), ticks).Running?
    ensures BindsInsert(s.config, Received(Steps(s, Running(st), ticks).st))
  {
    StepsKeepEveryRecord(s, st, ticks);
    IngestedBinds(s, ticks);
  }

  /** All records decoded from one message carry the same receive time. */
  lemma OneMessageOneTime(s: Setup, t: Tick, i: nat, j: nat)
    requires i < |Decoded(s, t)| && j < |Decoded(s, t)|
    ensures s.config.datetime ==>
      Decoded(s, t)[i][DatetimeColumn] == Decoded(s, t)[j][DatetimeColumn] == DateTime(t.clock)
    ensures s.config.timestamp ==>
      Decoded(s, t)[i][TimestampColumn] == Decoded(s, t)[j][TimestampColumn] == Int(EpochSeconds(t.clock))
  {
  }

  /**
   * A failed flush keeps every pending row, and the next message, once the sink accepts
   * everything, flushes them all together with the new records in one batch: there is
   * no back-off, since `prev` did not move.
   */
  lemma RetryDeliversBacklog(s: Setup, st: State, t1: Tick, t2: Tick)
    requires t1.received.Arrived? && Unpack(s, t1.received.data).Ok?
    requires t1.clock - st.prev > IntervalMicros(s.config)
    requires st.rows + Decoded(s, t1) != []
    requires !Commits(s, UrlAt(s, t1.clock), st.rows + Decoded(s, t1), t1.sink)
    requires t2.received.Arrived? && Unpack(s, t2.received.data).Ok?
    requires t2.clock >= t1.clock
    requires forall url :: t2.sink.connects(url)
    requires forall url, stmt, rows :: t2.sink.accepts(url, stmt, rows)
    ensures var p1 := Iterate(s, Running(st), t1);
      p1.Running? && p1.st.rows == st.rows + Decoded(s, t1) && p1.st.prev == st.prev
    ensures var p2 := Iterate(s, Iterate(s, Running(st), t1), t2);
      p2.Running? && p2.st.rows == [] &&
      p2.st.written == st.written + [Batch(UrlAt(s, t2.clock), st.rows + Decoded(s, t1) + Decoded(s, t2))]
  {
    var st1 := st.(rows := st.rows + Decoded(s, t1), now := t1.clock);
    assert Iterate(s, Running(st), t1) == Running(st1);
    var st2 := st1.(rows := st1.rows + Decoded(s, t2), now := t2.clock);
    assert Commits(s, UrlAt(s, t2.clock), st2.rows, t2.sink);
    assert Iterate(s, Running(st1), t2) ==
      Running(st2.(rows := [], prev := t2.clock, written := st.written + [Batch(UrlAt(s, t2.clock), st2.rows)]));
  }
}

=== FILE: results.dfy ===
/** Option and Result values, and the Python exceptions the model reports as errors. */
module Results {

  datatype Option<+T> = None | Some(value: T)

  /** The exception a Python operation would raise, reduced to its class and a short reason. */
  datatype Error =
    | KeyError(key: string)          // a dict lookup of a missing key
    | TypeError(reason: string)      // indexing or updating something that is not a dict
    | AttributeError(reason: string) // a method called on the wrong kind of object
    | Unrendered                     // str() of a list or dict, whose text is not modelled

  datatype Result<+T> = Ok(value: T) | Err(error: Error)
}

=== FILE: scenarios.dfy ===
/**
 * End-to-end runs of one worker: the pipeline functions applied to short message
 * sequences, and what the sink holds afterwards.
 */
module Scenarios {
  import opened Results
  import opened Strings
  import opened Schema
  import opened Loaders
  import opened Pipeline

  /**
   * Two messages within one interval of the start are not flushed by the loop; the final
   * flush persists the records of both, in arrival order, as one batch, and empties the
   * buffer.
   */
  lemma TwoMessagesOneFlush(s: Setup, start: int, t1: Tick, t2: Tick, finalSink: Sink)
    requires t1.received.Arrived? && Unpack(s, t1.received.data).Ok?
    requires t2.received.Arrived? && Unpack(s, t2.received.data).Ok?
    requires start <= t1.clock <= t2.clock <= start + IntervalMicros(s.config)
    requires Decoded(s, t1) + Decoded(s, t2) != []
    requires Commits(s, UrlAt(s, t2.clock), Decoded(s, t1) + Decoded(s, t2), finalSink)
    ensures Run(s, start, [], [t1, t2], finalSink) ==
      (Stopped(true), State([], start, t2.clock, [Batch(UrlAt(s, t2.clock), Decoded(s, t1) + Decoded(s, t2))]))
  {
    var ticks := [t1, t2];
    var st0 := Start(start, []);
    assert ticks[..1] == [t1] && ticks[..0] == [];
    var st1 := st0.(rows := Decoded(s, t1), now := t1.clock);
    assert Steps(s, Running(st0), ticks[..1]) == Running(st1) by {
      assert Steps(s, Running(st0), ticks[..0]) == Running(st0);
      assert [] + Decoded(s, t1) == Decoded(s, t1);
    }
    var st2 := st1.(rows := Decoded(s, t1) + Decoded(s, t2), now := t2.clock);
    assert Steps(s, Running(st0), ticks) == Running(st2);
    assert Flatten([]) == [];
  }

  /** A target whose columns are `rssi REAL` and `payload TEXT`, with `_datetime_` on and a one-second interval. */
  function SensorTable(name: string, url: string): TableConfig
  {
    TableConfig(name, url, [("rssi", "REAL"), ("payload", "TEXT")], true, false, false,
                Absent, [], [], "", [], Some(Duration(0, 0, 0, 0, 1, 0, 0)))
  }

  const SensorHeader: seq<string> := ["time", "rssi", "payload"]

  /** A field the CSV reader gives back unchanged. */
  predicate PlainField(field: string)
  {
    IsStripped(field) && ',' !in field && HasNoBreak(field)
  }

  /** The row of one CSV line: the three header fields as text, stamped with the receive time. */
  function SensorRow(time: string, rssi: string, payload: string, clock: int): Record
  {
    map["time" := Str(time), "rssi" := Str(rssi), "payload" := Str(payload), DatetimeColumn := DateTime(clock)]
  }

  lemma TimeIsStripped()
    ensures IsStripped("time")
  {
    assert !IsSpace('t');
    assert !IsSpace('e');
  }

  lemma RssiIsStripped()
    ensures IsStripped("rssi")
  {
    assert !IsSpace('r');
    assert !IsSpace('i');
  }

  lemma PayloadIsStripped()
    ensures IsStripped("payload")
  {
    assert !IsSpace('p');
    assert !IsSpace('d');
  }

  /** The header names are distinct and carry no white space. */
  lemma SensorHeaderPlain()
    ensures Distinct(SensorHeader)
    ensures forall i :: 0 <= i < |SensorHeader| ==> IsStripped(SensorHeader[i])
  {
    TimeIsStripped();
    RssiIsStripped();
    PayloadIsStripped();
    assert "time"[0] != "rssi"[0] && "time"[0] != "payload"[0] && "rssi"[0] != "payload"[0];
  }

  lemma JoinThree(a: string, b: string, c: string)
    ensures Join([a, b, c], ",") == a + "," + b + "," + c
  {
    assert [a, b, c][1..] == [b, c];
    assert [b, c][1..] == [c];
    assert Join([b, c], ",") == b + "," + c;
    assert Join([a, b, c], ",") == a + "," + (b + "," + c);
  }

  /** The CSV loader reads one line under the header into one dict of the stripped fields. */
  lemma SensorLine(time: string, rssi: string, payload: string)
    requires PlainField(time) && PlainField(rssi) && PlainField(payload) && time != []
    ensures CsvRecords(time + "," + rssi + "," + payload, Some(SensorHeader)).Ok?
    ensures var rows := CsvRecords(time + "," + rssi + "," + payload, Some(SensorHeader)).value;
      |rows| == 1 && rows[0].Keys == {"time", "rssi", "payload"} &&
      rows[0]["time"] == time && rows[0]["rssi"] == rssi && rows[0]["payload"] == payload
  {
    var values := [time, rssi, payload];
    var text := time + "," + rssi + "," + payload;
    assert CsvRecords(text, Some(SensorHeader)) == Ok([StripItems(ZipDict(SensorHeader, values))]) by {
      JoinThree(time, rssi, payload);
      CsvSingleLine(SensorHeader, values);
    }
    SensorRowDict(time, rssi, payload);
  }

  /** The dict of the three fields under the header. */
  lemma SensorRowDict(time: string, rssi: string, payload: string)
    requires PlainField(time) && PlainField(rssi) && PlainField(payload)
    ensures var d := StripItems(ZipDict(SensorHeader, [time, rssi, payload]));
      d.Keys == {"time", "rssi", "payload"} && d["time"] == time && d["rssi"] == rssi && d["payload"] == payload
  {
    var values := [time, rssi, payload];
    SensorHeaderPlain();
    RowOfStrippedFields(SensorHeader, values);
    var d := RowDict(SensorHeader, values).value;
    assert d.Keys == {"time", "rssi", "payload"} by {
      assert forall k :: k in d <==> k in SensorHeader;
    }
    assert d["time"] == time && d["rssi"] == rssi && d["payload"] == payload by {
      assert SensorHeader[0] == "time" && SensorHeader[1] == "rssi" && SensorHeader[2] == "payload";
    }
  }

  /** The dict of the three fields as the record the run sees. */
  lemma SensorRecord(time: string, rssi: string, payload: string)
    requires PlainField(time) && PlainField(rssi) && PlainField(payload)
    ensures AsRecord(StripItems(ZipDict(SensorHeader, [time, rssi, payload]))) ==
      map["time" := Str(time), "rssi" := Str(rssi), "payload" := Str(payload)]
  {
    SensorRowDict(time, rssi, payload);
  }

  /** The loader hands the run the record of the one line, with every field as text. */
  lemma SensorLoaded(time: string, rssi: string, payload: string)
    requires PlainField(time) && PlainField(rssi) && PlainField(payload) && time != []
    ensures Load(CsvLoader(Some(SensorHeader)), Bytes(time + "," + rssi + "," + payload)) ==
      Ok(Many([map["time" := Str(time), "rssi" := Str(rssi), "payload" := Str(payload)]]))
  {
    var text := time + "," + rssi + "," + payload;
    var d := StripItems(ZipDict(SensorHeader, [time, rssi, payload]));
    var e := map["time" := Str(time), "rssi" := Str(rssi), "payload" := Str(payload)];
    assert CsvRecords(text, Some(SensorHeader)) == Ok([d]) by {
      JoinThree(time, rssi, payload);
      CsvSingleLine(SensorHeader, [time, rssi, payload]);
    }
    assert AsRecord(d) == e by {
      SensorRecord(time, rssi, payload);
    }
    var r := Load(CsvLoader(Some(SensorHeader)), Bytes(text));
    assert r.value.records == [e];
  }

  /** Normalising that record adds the receive time and keeps the `time` field. */
  lemma SensorNormalized(name: string, url: string, time: string, rssi: string, payload: string,
                         clock: int, data: Payload)
    ensures NormalizeRecord(SensorTable(name, url),
                            map["time" := Str(time), "rssi" := Str(rssi), "payload" := Str(payload)], clock, data) ==
      SensorRow(time, rssi, payload, clock)
  {
    var c := SensorTable(name, url);
    var e := map["time" := Str(time), "rssi" := Str(rssi), "payload" := Str(payload)];
    var r := NormalizeRecord(c, e, clock, data);
    var row := SensorRow(time, rssi, payload, clock);
    assert ColumnNames(c) == ["rssi", "payload"];
    assert AutoKeys(c) == {DatetimeColumn};
    assert r.Keys == row.Keys;
    assert r["time"] == row["time"] && r["rssi"] == row["rssi"] && r["payload"] == row["payload"];
  }

  /**
   * Loading "time,rssi,payload" text with the header and normalising it gives one row
   * whose `_datetime_` is the receive time; the `time` field is kept as a column of its
   * own and does not feed `_datetime_`.
   */
  lemma SensorDecoded(name: string, url: string, strftime: (string, int) -> string,
                      time: string, rssi: string, payload: string, clock: int, sink: Sink)
    requires PlainField(time) && PlainField(rssi) && PlainField(payload) && time != []
    ensures var s := Configure(SensorTable(name, url), CsvLoader(Some(SensorHeader)), strftime);
      Decoded(s, Tick(Arrived(Bytes(time + "," + rssi + "," + payload)), clock, sink)) ==
      [SensorRow(time, rssi, payload, clock)]
  {
    var s := Configure(SensorTable(name, url), CsvLoader(Some(SensorHeader)), strftime);
    var data := Bytes(time + "," + rssi + "," + payload);
    var e := map["time" := Str(time), "rssi" := Str(rssi), "payload" := Str(payload)];
    assert Unpack(s, data) == Ok([e]) by {
      SensorLoaded(time, rssi, payload);
    }
    SensorNormalized(name, url, time, rssi, payload, clock, data);
    assert NormalizeAll(s.config, [e], clock, data) == [NormalizeRecord(s.config, e, clock, data)];
  }

  /**
   * One message whose records the sinks accept ends up in the database as one batch,
   * whether the loop flushes it (more than the interval after the start) or the final
   * flush does; the buffer ends empty.
   */
  lemma OneMessageDelivered(s: Setup, start: int, tick: Tick, finalSink: Sink)
    requires tick.received.Arrived? && Unpack(s, tick.received.data).Ok?
    requires Decoded(s, tick) != []
    requires Commits(s, UrlAt(s, tick.clock), Decoded(s, tick), tick.sink)
    requires Commits(s, UrlAt(s, tick.clock), Decoded(s, tick), finalSink)
    ensures Run(s, start, [], [tick], finalSink).0 == Stopped(true)
    ensures Run(s, start, [], [tick], finalSink).1.rows == []
    ensures Run(s, start, [], [tick], finalSink).1.written == [Batch(UrlAt(s, tick.clock), Decoded(s, tick))]
  {
    var st0 := Start(start, []);
    var st1 := st0.(rows := Decoded(s, tick), now := tick.clock);
    assert [tick][..0] == [];
    assert Steps(s, Running(st0), []) == Running(st0);
    assert [] + Decoded(s, tick) == Decoded(s, tick);
    var batch := [Batch(UrlAt(s, tick.clock), Decoded(s, tick))];
    assert [] + batch == batch;
    if tick.clock - start > IntervalMicros(s.config) {
      assert Steps(s, Running(st0), [tick]) == Running(st1.(rows := [], written := batch, prev := tick.clock));
    } else {
      assert Steps(s, Running(st0), [tick]) == Running(st1);
    }
  }

  /**
   * The example of one CSV message on the sensor table: once the run stops with sinks
   * that accept everything, the database holds exactly one row, in the URL for the
   * receive time, and the buffer is empty.
   */
  lemma SensorRun(name: string, url: string, strftime: (string, int) -> string,
                  time: string, rssi: string, payload: string, start: int, clock: int, sink: Sink, finalSink: Sink)
    requires PlainField(time) && PlainField(rssi) && PlainField(payload) && time != []
    requires forall u :: sink.connects(u) && finalSink.connects(u)
    requires forall u, stmt, rows :: sink.accepts(u, stmt, rows) && finalSink.accepts(u, stmt, rows)
    ensures var s := Configure(SensorTable(name, url), CsvLoader(Some(SensorHeader)), strftime);
      var tick := Tick(Arrived(Bytes(time + "," + rssi + "," + payload)), clock, sink);
      var outcome := Run(s, start, [], [tick], finalSink);
      outcome.0 == Stopped(true) && outcome.1.rows == [] &&
      outcome.1.written == [Batch(strftime(url, clock), [SensorRow(time, rssi, payload, clock)])]
  {
    var s := Configure(SensorTable(name, url), CsvLoader(Some(SensorHeader)), strftime);
    var tick := Tick(Arrived(Bytes(time + "," + rssi + "," + payload)), clock, sink);
    SensorDecoded(name, url, strftime, time, rssi, payload, clock, sink);
    SensorLoaded(time, rssi, payload);
    var rows := [SensorRow(time, rssi, payload, clock)];
    assert Commits(s, UrlAt(s, clock), rows, sink);
    assert Commits(s, UrlAt(s, clock), rows, finalSink);
    OneMessageDelivered(s, start, tick, finalSink);
  }
}

=== FILE: schema.dfy ===
/**
 * The SQL a worker derives once from its target's database configuration: the
 * CREATE TABLE statement, one CREATE INDEX statement per configured index, and the
 * parameterised INSERT statement (`_Worker.__init__`).
 */
module Schema {
  import opened Results
  import opened Strings

  /** A configuration key that may be missing, present with value null, or given. */
  datatype Setting<T> = Absent | Null | Given(value: T)

  /** The keyword arguments of the `interval` timedelta; a missing one is zero. */
  datatype Duration = Duration(
    weeks: int, days: int, hours: int, minutes: int,
    seconds: int, milliseconds: int, microseconds: int)

  /** The `database` section of one target, with the target's name. */
  datatype TableConfig = TableConfig(
    name: string,                            // the target name, also the table name
    url: string,                             // the URL template, expanded with strftime
    columns: seq<(string, string)>,          // user columns: name and SQL type, in order
    datetime: bool,                          // `_datetime_`
    timestamp: bool,                         // `_timestamp_`
    raw: bool,                               // `_raw_`
    primaryKey: Setting<seq<string>>,
    unique: seq<(string, seq<string>)>,      // constraint name and its columns, in order
    indices: seq<(string, seq<string>)>,     // index name and its columns, in order
    insertPrefix: string,
    init: seq<string>,                       // statements run before every flush
    interval: Option<Duration>)          // absent: one second

  const DatetimeColumn := "_datetime_"
  const TimestampColumn := "_timestamp_"
  const RawColumn := "_raw_"

  /** The flush interval in microseconds; one second when none is configured. */
  function IntervalMicros(c: TableConfig): int
  {
    match c.interval
    case Some(d) =>
      ((((d.weeks * 7 + d.days) * 24 + d.hours) * 60 + d.minutes) * 60 + d.seconds) * 1000000
      + d.milliseconds * 1000 + d.microseconds
    case None => 1000000
  }

  /** The names of the user columns, in configured order. */
  function ColumnNames(c: TableConfig): (names: seq<string>)
    ensures |names| == |c.columns|
    ensures forall i :: 0 <= i < |names| ==> names[i] == c.columns[i].0
  {
    seq(|c.columns|, i requires 0 <= i < |c.columns| => c.columns[i].0)
  }

  /**
   * The primary key: the configured one, `[_datetime_]` when none is configured and
   * `_datetime_` is on, and none when the key is configured as null.
   */
  function PrimaryKey(c: TableConfig): (keys: Option<seq<string>>)
    ensures c.primaryKey.Given? ==> keys == Some(c.primaryKey.value)
    ensures !c.primaryKey.Given? ==> (keys == Some([DatetimeColumn]) <==> c.primaryKey.Absent? && c.datetime)
    ensures !c.primaryKey.Given? ==> (keys.None? <==> c.primaryKey.Null? || !c.datetime)
  {
    match c.primaryKey
    case Absent => if c.datetime then Some([DatetimeColumn]) else None
    case Null => None
    case Given(keys) => Some(keys)
  }

  /** One element of the CREATE TABLE body. */
  datatype Clause =
    | AutoColumn(column: string, sqlType: string)
    | UserColumns(defs: seq<(string, string)>)  // all user columns, rendered as one element
    | PrimaryKeyOn(keys: seq<string>)
    | UniqueOn(constraint: string, keys: seq<string>)

  function ColumnDef(column: string, sqlType: string): string
  {
    "  " + column + " " + sqlType
  }

  function Render(clause: Clause): string
  {
    match clause
    case AutoColumn(column, sqlType) => ColumnDef(column, sqlType)
    case UserColumns(defs) =>
      Join(seq(|defs|, i requires 0 <= i < |defs| => ColumnDef(defs[i].0, defs[i].1)), ",\n")
    case PrimaryKeyOn(keys) => "  PRIMARY KEY(" + Join(keys, ",") + ")"
    case UniqueOn(constraint, keys) => "  CONSTRAINT " + constraint + " UNIQUE(" + Join(keys, ",") + ")"
  }

  function RenderAll(clauses: seq<Clause>): (texts: seq<string>)
    ensures |texts| == |clauses|
    ensures forall i :: 0 <= i < |clauses| ==> texts[i] == Render(clauses[i])
  {
    seq(|clauses|, i requires 0 <= i < |clauses| => Render(clauses[i]))
  }

  function UniqueClauses(unique: seq<(string, seq<string>)>): seq<Clause>
  {
    seq(|unique|, i requires 0 <= i < |unique| => UniqueOn(unique[i].0, unique[i].1))
  }

  /** The auto-columns declared before the user columns: `_timestamp_`, then `_datetime_`. */
  function LeadingAutoColumns(c: TableConfig): seq<Clause>
  {
    (if c.timestamp then [AutoColumn(TimestampColumn, "INTEGER NOT NULL")] else []) +
    (if c.datetime then [AutoColumn(DatetimeColumn, "DATETIME NOT NULL")] else [])
  }

  /** The auto-column declared after the user columns: `_raw_`. */
  function TrailingAutoColumns(c: TableConfig): seq<Clause>
  {
    if c.raw then [AutoColumn(RawColumn, "BLOB NOT NULL")] else []
  }

  function KeyClauses(c: TableConfig): seq<Clause>
  {
    match PrimaryKey(c)
    case Some(keys) => [PrimaryKeyOn(keys)]
    case None => []
  }

  /** The body of the CREATE TABLE statement, element by element. */
  function TableClauses(c: TableConfig): seq<Clause>
  {
    LeadingAutoColumns(c) + [UserColumns(c.columns)] + TrailingAutoColumns(c) +
    KeyClauses(c) + UniqueClauses(c.unique)
  }

  /**
   * The CREATE TABLE statement executed at every flush: it creates the target's table
   * only when it does not exist yet, and holds the column elements between the
   * parentheses, ended by ");".
   */
  function TableSql(c: TableConfig): (sql: string)
    ensures var head := "CREATE TABLE IF NOT EXISTS " + c.name + " (\n";
      |sql| >= |head| + 2 && sql[..|head|] == head && sql[|sql| - 2..] == ");"
    ensures sql == "CREATE TABLE IF NOT EXISTS " + c.name + " (\n" + Join(RenderAll(TableClauses(c)), ",\n") + ");"
  {
    var head := "CREATE TABLE IF NOT EXISTS " + c.name + " (\n";
    var sql := head + Join(RenderAll(TableClauses(c)), ",\n") + ");";
    assert sql[..|head|] == head;
    sql
  }

  lemma RenderAllConcat(a: seq<Clause>, b: seq<Clause>)
    ensures RenderAll(a + b) == RenderAll(a) + RenderAll(b)
  {
  }

  /** The loop over `unique` in `_Worker.__init__`: one CONSTRAINT element per entry, in order. */
  method AppendConstraints(head: seq<string>, unique: seq<(string, seq<string>)>) returns (spec: seq<string>)
    ensures spec == head + RenderAll(UniqueClauses(unique))
  {
    spec := head;
    for i := 0 to |unique|
      invariant spec == head + RenderAll(UniqueClauses(unique[..i]))
    {
      assert UniqueClauses(unique[..i + 1]) == UniqueClauses(unique[..i]) + [UniqueOn(unique[i].0, unique[i].1)];
      RenderAllConcat(UniqueClauses(unique[..i]), [UniqueOn(unique[i].0, unique[i].1)]);
      spec := spec + ["  CONSTRAINT " + unique[i].0 + " UNIQUE(" + Join(unique[i].1, ",") + ")"];
    }
    assert unique[..|unique|] == unique;
  }

  /**
   * `columns_spec` as `_Worker.__init__` builds it: the user block first, then the
   * auto-columns inserted in front of it, then appended after it the raw column, the
   * primary key and one constraint per unique entry. The result is the rendered layout.
   */
  method BuildColumnsSpec(c: TableConfig) returns (spec: seq<string>)
    ensures spec == RenderAll(TableClauses(c))
  {
    spec := [Render(UserColumns(c.columns))];
    if c.datetime {
      spec := [ColumnDef(DatetimeColumn, "DATETIME NOT NULL")] + spec;
    }
    if c.timestamp {
      spec := [ColumnDef(TimestampColumn, "INTEGER NOT NULL")] + spec;
    }
    assert spec == RenderAll(LeadingAutoColumns(c) + [UserColumns(c.columns)]);
    if c.raw {
      spec := spec + [ColumnDef(RawColumn, "BLOB NOT NULL")];
    }
    var keys := PrimaryKey(c);
    if keys.Some? {
      spec := spec + ["  PRIMARY KEY(" + Join(keys.value, ",") + ")"];
    }
    ghost var head := LeadingAutoColumns(c) + [UserColumns(c.columns)] + TrailingAutoColumns(c) + KeyClauses(c);
    assert spec == RenderAll(head);
    spec := AppendConstraints(spec, c.unique);
    RenderAllConcat(head, UniqueClauses(c.unique));
  }

  /** The columns the table declares, in declaration order. */
  function Declared(clauses: seq<Clause>): seq<string>
  {
    if clauses == [] then []
    else
      (match clauses[0]
       case AutoColumn(column, _) => [column]
       case UserColumns(defs) => seq(|defs|, i requires 0 <= i < |defs| => defs[i].0)
       case _ => []) + Declared(clauses[1..])
  }

  lemma {:induction false} DeclaredConcat(a: seq<Clause>, b: seq<Clause>)
    ensures Declared(a + b) == Declared(a) + Declared(b)
  {
    if a != [] {
      DeclaredConcat(a[1..], b);
      assert (a + b)[1..] == a[1..] + b;
    } else {
      assert a + b == b;
    }
  }

  lemma {:induction false} DeclaredUnique(unique: seq<(string, seq<string>)>)
    ensures Declared(UniqueClauses(unique)) == []
  {
    if unique != [] {
      DeclaredUnique(unique[1..]);
      assert UniqueClauses(unique)[1..] == UniqueClauses(unique[1..]);
    }
  }

  /**
   * The columns of the INSERT statement: the user columns in configured order, then each
   * enabled auto-column once, in the order `_datetime_`, `_timestamp_`, `_raw_`.
   */
  function InsertColumns(c: TableConfig): (columns: seq<string>)
    ensures |columns| >= |c.columns| && columns[..|c.columns|] == ColumnNames(c)
    ensures DatetimeColumn in columns[|c.columns|..] <==> c.datetime
    ensures TimestampColumn in columns[|c.columns|..] <==> c.timestamp
    ensures RawColumn in columns[|c.columns|..] <==> c.raw
    ensures forall k :: k in columns[|c.columns|..] ==> k == DatetimeColumn || k == TimestampColumn || k == RawColumn
    ensures |columns| == |c.columns| + (if c.datetime then 1 else 0) + (if c.timestamp then 1 else 0) + (if c.raw then 1 else 0)
  {
    var columns := ColumnNames(c) +
      (if c.datetime then [DatetimeColumn] else []) +
      (if c.timestamp then [TimestampColumn] else []) +
      (if c.raw then [RawColumn] else []);
    assert columns[..|c.columns|] == ColumnNames(c);
    assert columns[|c.columns|..] ==
      (if c.datetime then [DatetimeColumn] else []) +
      (if c.timestamp then [TimestampColumn] else []) +
      (if c.raw then [RawColumn] else []);
    columns
  }

  /** The columns a single clause declares. */
  lemma DeclaredSingle(clause: Clause)
    ensures Declared([clause]) ==
      match clause
      case AutoColumn(column, _) => [column]
      case UserColumns(defs) => seq(|defs|, i requires 0 <= i < |defs| => defs[i].0)
      case _ => []
  {
    assert [clause][1..] == [];
  }

  /**
   * The table declares the auto-columns around the user columns in the order timestamp,
   * datetime, user columns, raw.
   */
  lemma TableColumnOrder(c: TableConfig)
    ensures Declared(TableClauses(c)) ==
      (if c.timestamp then [TimestampColumn] else []) +
      (if c.datetime then [DatetimeColumn] else []) +
      ColumnNames(c) +
      (if c.raw then [RawColumn] else [])
  {
    var lead, user, trail := LeadingAutoColumns(c), [UserColumns(c.columns)], TrailingAutoColumns(c);
    var keys, uq := KeyClauses(c), UniqueClauses(c.unique);
    DeclaredConcat(lead + user + trail + keys, uq);
    DeclaredConcat(lead + user + trail, keys);
    DeclaredConcat(lead + user, trail);
    DeclaredConcat(lead, user);
    DeclaredUnique(c.unique);
    DeclaredSingle(UserColumns(c.columns));
    var ts: seq<string> := if c.timestamp then [TimestampColumn] else [];
    var dt: seq<string> := if c.datetime then [DatetimeColumn] else [];
    var raw: seq<string> := if c.raw then [RawColumn] else [];
    assert Declared(user) == ColumnNames(c);
    assert Declared(keys) == [] by {
      if keys != [] { DeclaredSingle(keys[0]); }
    }
    assert Declared(trail) == raw by {
      if c.raw { DeclaredSingle(trail[0]); }
    }
    assert Declared(lead) == ts + dt by {
      var a: seq<Clause> := if c.timestamp then [AutoColumn(TimestampColumn, "INTEGER NOT NULL")] else [];
      var b: seq<Clause> := if c.datetime then [AutoColumn(DatetimeColumn, "DATETIME NOT NULL")] else [];
      DeclaredConcat(a, b);
      if c.timestamp { DeclaredSingle(a[0]); }
      if c.datetime { DeclaredSingle(b[0]); }
    }
  }

  /**
   * The INSERT lists the auto-columns after the user columns in the order `_datetime_`,
   * `_timestamp_`, `_raw_`, while the table declares `_timestamp_` before `_datetime_`.
   */
  lemma InsertColumnOrder(c: TableConfig)
    ensures InsertColumns(c)[|c.columns|..] ==
      (if c.datetime then [DatetimeColumn] else []) +
      (if c.timestamp then [TimestampColumn] else []) +
      (if c.raw then [RawColumn] else [])
  {
  }

  /**
   * The INSERT names exactly the columns the table declares, each once: so every
   * declared column is bound by exactly one placeholder, though in another order.
   */
  lemma TableDeclaresInsertColumns(c: TableConfig)
    ensures multiset(Declared(TableClauses(c))) == multiset(InsertColumns(c))
  {
    var ts: seq<string> := if c.timestamp then [TimestampColumn] else [];
    var dt: seq<string> := if c.datetime then [DatetimeColumn] else [];
    var raw: seq<string> := if c.raw then [RawColumn] else [];
    var names := ColumnNames(c);
    assert Declared(TableClauses(c)) == ts + dt + names + raw by {
      TableColumnOrder(c);
    }
    assert InsertColumns(c) == names + dt + ts + raw by {
      assert InsertColumns(c)[..|c.columns|] == names;
      assert InsertColumns(c)[|c.columns|..] == dt + ts + raw;
      assert InsertColumns(c) == InsertColumns(c)[..|c.columns|] + InsertColumns(c)[|c.columns|..];
    }
    SwapMultiset(ts, dt, names, raw);
  }

  /** Reordering the first three of four pieces keeps the multiset of their elements. */
  lemma SwapMultiset<T>(a: seq<T>, b: seq<T>, c: seq<T>, d: seq<T>)
    ensures multiset(a + b + c + d) == multiset(c + b + a + d)
  {
    calc {
      multiset(a + b + c + d);
      multiset(a) + multiset(b) + multiset(c) + multiset(d);
      multiset(c) + multiset(b) + multiset(a) + multiset(d);
      multiset(c + b + a + d);
    }
  }

  /** Python's `",".join(f":{column}" for column in columns)`. */
  function Placeholders(columns: seq<string>): string
  {
    Join(seq(|columns|, i requires 0 <= i < |columns| => ":" + columns[i]), ",")
  }

  /**
   * Reading the placeholder list back gives one `:column` per insert column, in the
   * same order, as long as no column name holds a comma.
   */
  lemma PlaceholdersMatchColumns(columns: seq<string>)
    requires |columns| > 0
    requires forall i :: 0 <= i < |columns| ==> ',' !in columns[i]
    ensures |Split(Placeholders(columns), ',')| == |columns|
    ensures forall i :: 0 <= i < |columns| ==> Split(Placeholders(columns), ',')[i] == ":" + columns[i]
  {
    var marks := seq(|columns|, i requires 0 <= i < |columns| => ":" + columns[i]);
    forall i | 0 <= i < |marks| ensures ',' !in marks[i] {
      assert marks[i] == [':'] + columns[i];
    }
    SplitJoin(marks, ',');
  }

  const Indent := "            "

  /**
   * The INSERT statement, laid out as the source's triple-quoted f-string lays it out:
   * it starts with "INSERT" after a line break and the indentation, and ends with the
   * placeholder list and a closing parenthesis, a line break and the indentation.
   */
  function InsertSql(c: TableConfig): (sql: string)
    ensures var head := "\n" + Indent + "INSERT " + c.insertPrefix + " INTO " + c.name + "(";
      |sql| > |head| && sql[..|head|] == head
    ensures var tail := Placeholders(InsertColumns(c)) + ")\n" + Indent;
      |sql| > |tail| && sql[|sql| - |tail|..] == tail
    ensures sql == "\n" + Indent + "INSERT " + c.insertPrefix + " INTO " + c.name +
      "(" + Join(InsertColumns(c), ", ") + ")\n" +
      Indent + "VALUES(" + Placeholders(InsertColumns(c)) + ")\n" + Indent
  {
    var head := "\n" + Indent + "INSERT " + c.insertPrefix + " INTO " + c.name + "(";
    var tail := Placeholders(InsertColumns(c)) + ")\n" + Indent;
    var front := head + Join(InsertColumns(c), ", ") + ")\n" + Indent + "VALUES(";
    var sql := front + Placeholders(InsertColumns(c)) + ")\n" + Indent;
    assert sql[..|head|] == head by {
      assert sql[..|front|] == front;
    }
    assert sql[|front|..] == tail;
    sql
  }

  function IndexSql(table: string, index: string, keys: seq<string>): string
  {
    "CREATE INDEX IF NOT EXISTS " + index + " ON " + table + "(" + Join(keys, ",") + ");"
  }

  /** The CREATE INDEX statements, as a value. */
  function IndexStatements(c: TableConfig): seq<string>
  {
    seq(|c.indices|, i requires 0 <= i < |c.indices| => IndexSql(c.name, c.indices[i].0, c.indices[i].1))
  }

  /**
   * `_sql_indices` as `_Worker.__init__` appends it: exactly one CREATE INDEX statement
   * per configured index, in configured order, on the target's table.
   */
  method BuildIndexStatements(c: TableConfig) returns (stmts: seq<string>)
    ensures |stmts| == |c.indices|
    ensures forall i :: 0 <= i < |stmts| ==>
      stmts[i] == "CREATE INDEX IF NOT EXISTS " + c.indices[i].0 + " ON " + c.name + "(" + Join(c.indices[i].1, ",") + ");"
    ensures stmts == IndexStatements(c)
  {
    stmts := [];
    for i := 0 to |c.indices|
      invariant |stmts| == i
      invariant forall k :: 0 <= k < i ==> stmts[k] == IndexSql(c.name, c.indices[k].0, c.indices[k].1)
    {
      stmts := stmts + [IndexSql(c.name, c.indices[i].0, c.indices[i].1)];
    }
  }

  /** With no user columns the user block is still there, as an empty element. */
  lemma EmptyColumnsLeaveEmptyClause(c: TableConfig)
    requires c.columns == []
    ensures var k := (if c.timestamp then 1 else 0) + (if c.datetime then 1 else 0);
      k < |RenderAll(TableClauses(c))| && RenderAll(TableClauses(c))[k] == ""
  {
    var k := (if c.timestamp then 1 else 0) + (if c.datetime then 1 else 0);
    assert TableClauses(c)[k] == UserColumns([]);
  }

}

=== FILE: strings.dfy ===
/**
 * The Python string operations the core relies on: `sep.join`, `str.split` with a
 * one-character separator, `str.strip()`, `str.splitlines()` and `str.upper()`.
 */
module Strings {

  /** Python's `sep.join(parts)`. */
  function Join(parts: seq<string>, sep: string): string
  {
    if |parts| == 0 then ""
    else if |parts| == 1 then parts[0]
    else parts[0] + sep + Join(parts[1..], sep)
  }

  /** Number of occurrences of `c` in `s`. */
  function Count(s: string, c: char): nat
  {
    if s == [] then 0 else (if s[0] == c then 1 else 0) + Count(s[1..], c)
  }

  /**
   * Python's `s.split(c)`: the pieces between the occurrences of `c`. There is always
   * one piece more than there are separators, and no piece holds the separator.
   */
  function Split(s: string, c: char): (pieces: seq<string>)
    ensures |pieces| == Count(s, c) + 1
    ensures forall i :: 0 <= i < |pieces| ==> c !in pieces[i]
  {
    if s == [] then [""]
    else
      var rest := Split(s[1..], c);
      if s[0] == c then [""] + rest
      else [[s[0]] + rest[0]] + rest[1..]
  }

  lemma {:induction false} SplitWithout(s: string, c: char)
    requires c !in s
    ensures Split(s, c) == [s]
  {
    if s != [] {
      SplitWithout(s[1..], c);
      assert [s[0]] + s[1..] == s;
    }
  }

  lemma ConcatAssoc<T>(x: seq<T>, y: seq<T>, z: seq<T>)
    ensures x + (y + z) == x + y + z
  {
  }

  /** Splitting a string with a known first character. */
  lemma SplitCons(x: char, t: string, c: char)
    ensures Split([x] + t, c) ==
      (if x == c then [""] + Split(t, c) else [[x] + Split(t, c)[0]] + Split(t, c)[1..])
  {
    assert ([x] + t)[0] == x && ([x] + t)[1..] == t;
  }

  /** Splitting at one separator splits the two sides independently. */
  lemma {:induction false} SplitAround(a: string, b: string, c: char)
    ensures Split(a + [c] + b, c) == Split(a, c) + Split(b, c)
  {
    if a == [] {
      assert a + [c] + b == [c] + b;
      SplitCons(c, b, c);
    } else {
      var t := a[1..] + [c] + b;
      assert a + [c] + b == [a[0]] + t;
      assert a == [a[0]] + a[1..];
      SplitAround(a[1..], b, c);
      var left, right := Split(a[1..], c), Split(b, c);
      var whole := Split(t, c);
      assert whole == left + right;
      SplitCons(a[0], t, c);
      SplitCons(a[0], a[1..], c);
      var head := if a[0] == c then "" else [a[0]] + left[0];
      var tail := if a[0] == c then left else left[1..];
      assert Split(a, c) == [head] + tail;
      assert Split(a + [c] + b, c) == [head] + (tail + right) by {
        if a[0] != c {
          assert whole[0] == left[0];
          assert whole[1..] == left[1..] + right;
        }
      }
      ConcatAssoc([head], tail, right);
    }
  }

  /** Splitting undoes joining, as long as no part holds the separator. */
  lemma {:induction false} SplitJoin(parts: seq<string>, c: char)
    requires |parts| > 0
    requires forall i :: 0 <= i < |parts| ==> c !in parts[i]
    ensures Split(Join(parts, [c]), c) == parts
  {
    SplitWithout(parts[0], c);
    if |parts| > 1 {
      SplitJoin(parts[1..], c);
      SplitAround(parts[0], Join(parts[1..], [c]), c);
      assert [parts[0]] + parts[1..] == parts;
    }
  }

  /** Joining undoes splitting. */
  lemma {:induction false} JoinSplit(s: string, c: char)
    ensures Join(Split(s, c), [c]) == s
  {
    if s != [] {
      JoinSplit(s[1..], c);
      var rest := Split(s[1..], c);
      if s[0] == c {
        assert Join([""] + rest, [c]) == "" + [c] + Join(rest, [c]);
      } else if |rest| > 1 {
        assert Join(rest, [c]) == rest[0] + [c] + Join(rest[1..], [c]);
        assert ([[s[0]] + rest[0]] + rest[1..])[1..] == rest[1..];
      }
      assert [s[0]] + s[1..] == s;
    }
  }

  /**
   * The characters Python's `str.isspace()` accepts, which `str.strip()` removes: tab to
   * carriage return, U+001C to space, U+0085, U+00A0, U+1680, U+2000 to U+200A, U+2028,
   * U+2029, U+202F, U+205F and U+3000.
   */
  predicate IsSpace(ch: char)
  {
    ('\t' <= ch <= '\r') || ('\U{1C}' <= ch <= ' ') || ch == '\U{85}' || ch == '\U{A0}' ||
    ch == '\U{1680}' || ('\U{2000}' <= ch <= '\U{200A}') || ch == '\U{2028}' || ch == '\U{2029}' ||
    ch == '\U{202F}' || ch == '\U{205F}' || ch == '\U{3000}'
  }

  predicate AllSpace(s: string)
  {
    forall i :: 0 <= i < |s| ==> IsSpace(s[i])
  }

  /** Neither starts nor ends with white space. */
  predicate IsStripped(s: string)
  {
    s == [] || (!IsSpace(s[0]) && !IsSpace(s[|s| - 1]))
  }

  /** `s` without its leading white space. */
  function TrimStart(s: string): string
  {
    if s != [] && IsSpace(s[0]) then TrimStart(s[1..]) else s
  }

  /** `s` without its trailing white space. */
  function TrimEnd(s: string): string
  {
    if s != [] && IsSpace(s[|s| - 1]) then TrimEnd(s[..|s| - 1]) else s
  }

  /** Python's `str.strip()`. */
  function Strip(s: string): string
  {
    TrimEnd(TrimStart(s))
  }

  /** `TrimStart` drops a run of white space from the front and stops at the first other character. */
  lemma {:induction false} TrimStartShape(s: string)
    ensures var r := TrimStart(s);
      |r| <= |s| && r == s[|s| - |r|..] && AllSpace(s[..|s| - |r|]) && (r == [] || !IsSpace(r[0]))
  {
    if s != [] && IsSpace(s[0]) {
      TrimStartShape(s[1..]);
      var r := TrimStart(s[1..]);
      assert s[..|s| - |r|] == [s[0]] + s[1..][..|s| - 1 - |r|];
    }
  }

  /** `TrimEnd` drops a run of white space from the back and stops at the last other character. */
  lemma {:induction false} TrimEndShape(s: string)
    ensures var r := TrimEnd(s);
      |r| <= |s| && r == s[..|r|] && AllSpace(s[|r|..]) && (r == [] || !IsSpace(r[|r| - 1]))
  {
    if s != [] && IsSpace(s[|s| - 1]) {
      TrimEndShape(s[..|s| - 1]);
      var r := TrimEnd(s[..|s| - 1]);
      assert s[|r|..] == s[..|s| - 1][|r|..] + [s[|s| - 1]];
    }
  }

  /** What `strip` leaves neither starts nor ends with white space. */
  lemma StripStripped(s: string)
    ensures IsStripped(Strip(s))
  {
    var t := TrimStart(s);
    TrimStartShape(s);
    TrimEndShape(t);
    var r := TrimEnd(t);
    if r != [] {
      assert r[0] == t[0];
    }
  }

  /** What `strip` leaves is a piece of the input with only white space around it. */
  lemma StripShape(s: string)
    ensures |Strip(s)| <= |TrimStart(s)| <= |s|
    ensures var k := |s| - |TrimStart(s)|;
      k + |Strip(s)| <= |s| && s[k..k + |Strip(s)|] == Strip(s) &&
      AllSpace(s[..k]) && AllSpace(s[k + |Strip(s)|..])
  {
    var t := TrimStart(s);
    var r := TrimEnd(t);
    var k := |s| - |t|;
    TrimStartShape(s);
    TrimEndShape(t);
    assert s[k..k + |r|] == r by {
      assert s[k..k + |r|] == t[..|r|];
    }
    assert AllSpace(s[k + |r|..]) by {
      assert s[k + |r|..] == t[|r|..];
    }
  }

  lemma {:induction false} TrimStartPast(lead: string, rest: string)
    requires AllSpace(lead)
    requires rest == [] || !IsSpace(rest[0])
    ensures TrimStart(lead + rest) == rest
  {
    if lead == [] {
      assert lead + rest == rest;
    } else {
      assert (lead + rest)[1..] == lead[1..] + rest;
      TrimStartPast(lead[1..], rest);
    }
  }

  lemma {:induction false} TrimEndPast(rest: string, trail: string)
    requires AllSpace(trail)
    requires rest == [] || !IsSpace(rest[|rest| - 1])
    ensures TrimEnd(rest + trail) == rest
  {
    if trail == [] {
      assert rest + trail == rest;
    } else {
      assert (rest + trail)[..|rest + trail| - 1] == rest + trail[..|trail| - 1];
      TrimEndPast(rest, trail[..|trail| - 1]);
    }
  }

  /**
   * `strip` removes exactly the surrounding white space: whatever stripped text is
   * padded with white space on either side, stripping gives it back.
   */
  lemma StripUnique(lead: string, middle: string, trail: string)
    requires AllSpace(lead) && AllSpace(trail) && IsStripped(middle)
    ensures Strip(lead + middle + trail) == middle
  {
    if middle == [] {
      assert lead + middle + trail == (lead + trail) + [];
      TrimStartPast(lead + trail, []);
    } else {
      assert lead + middle + trail == lead + (middle + trail);
      TrimStartPast(lead, middle + trail);
      TrimEndPast(middle, trail);
    }
  }

  /**
   * The characters at which Python's `str.splitlines()` ends a line: line feed to
   * carriage return, U+001C to U+001E, U+0085, U+2028 and U+2029.
   */
  predicate IsLineBreak(ch: char)
  {
    ('\n' <= ch <= '\r') || ('\U{1C}' <= ch <= '\U{1E}') || ch == '\U{85}' ||
    ch == '\U{2028}' || ch == '\U{2029}'
  }

  predicate HasNoBreak(s: string)
  {
    forall i :: 0 <= i < |s| ==> !IsLineBreak(s[i])
  }

  /** Length of the first line of `s`: up to the first line break or the end. */
  function LineLength(s: string): (n: nat)
    ensures n <= |s| && HasNoBreak(s[..n])
    ensures n < |s| ==> IsLineBreak(s[n])
  {
    if s == [] || IsLineBreak(s[0]) then 0 else 1 + LineLength(s[1..])
  }

  lemma {:induction false} LineLengthOf(line: string, rest: string)
    requires HasNoBreak(line)
    requires rest == [] || IsLineBreak(rest[0])
    ensures LineLength(line + rest) == |line|
  {
    if line == [] {
      assert line + rest == rest;
    } else {
      assert (line + rest)[0] == line[0];
      assert (line + rest)[1..] == line[1..] + rest;
      LineLengthOf(line[1..], rest);
    }
  }

  /**
   * Python's `str.splitlines()`: the lines of `s` without their line breaks, where
   * "\r\n" counts as one break and a final break does not start an empty line.
   */
  function SplitLines(s: string): (lines: seq<string>)
    ensures forall i :: 0 <= i < |lines| ==> HasNoBreak(lines[i])
    decreases |s|
  {
    if s == [] then []
    else
      var n := LineLength(s);
      if n == |s| then [s]
      else
        var width := if s[n] == '\r' && n + 1 < |s| && s[n + 1] == '\n' then 2 else 1;
        [s[..n]] + SplitLines(s[n + width..])
  }

  /**
   * Splitting lines undoes joining them with "\n", for lines without breaks whose last
   * one is not empty (an empty last line would vanish, as in Python).
   */
  lemma {:induction false} SplitLinesJoin(lines: seq<string>)
    requires forall i :: 0 <= i < |lines| ==> HasNoBreak(lines[i])
    requires lines == [] || lines[|lines| - 1] != []
    ensures SplitLines(Join(lines, "\n")) == lines
  {
    if |lines| == 1 {
      LineLengthOf(lines[0], []);
      assert lines[0] + [] == lines[0];
    } else if |lines| > 1 {
      var tail := Join(lines[1..], "\n");
      var s := Join(lines, "\n");
      assert s == lines[0] + ("\n" + tail);
      LineLengthOf(lines[0], "\n" + tail);
      assert s[|lines[0]|] == '\n';
      assert s[..|lines[0]|] == lines[0];
      assert s[|lines[0]| + 1..] == tail;
      SplitLinesJoin(lines[1..]);
      assert [lines[0]] + lines[1..] == lines;
    }
  }

  /** Parts and separator without line breaks join into text without one. */
  lemma {:induction false} JoinHasNoBreak(parts: seq<string>, sep: string)
    requires HasNoBreak(sep)
    requires forall i :: 0 <= i < |parts| ==> HasNoBreak(parts[i])
    ensures HasNoBreak(Join(parts, sep))
  {
    if |parts| > 1 {
      JoinHasNoBreak(parts[1..], sep);
      var rest := Join(parts[1..], sep);
      assert Join(parts, sep) == parts[0] + sep + rest;
      forall i | 0 <= i < |Join(parts, sep)| ensures !IsLineBreak(Join(parts, sep)[i]) {
        if i >= |parts[0]| + |sep| {
          assert Join(parts, sep)[i] == rest[i - |parts[0]| - |sep|];
        } else if i >= |parts[0]| {
          assert Join(parts, sep)[i] == sep[i - |parts[0]|];
        }
      }
    }
  }

  /** Non-empty text without a line break is a single line. */
  lemma SingleLine(line: string)
    requires line != [] && HasNoBreak(line)
    ensures SplitLines(line) == [line]
  {
    LineLengthOf(line, []);
    assert line + [] == line;
  }

  /** Python's `str.upper()` on ASCII letters. */
  function Upper(s: string): (r: string)
    ensures |r| == |s|
    ensures forall i :: 0 <= i < |s| ==> ('a' <= s[i] <= 'z' ==> r[i] as int == s[i] as int - 32)
    ensures forall i :: 0 <= i < |s| ==> (!('a' <= s[i] <= 'z') ==> r[i] == s[i])
  {
    seq(|s|, i requires 0 <= i < |s| => if 'a' <= s[i] <= 'z' then (s[i] as int - 32) as char else s[i])
  }
}

=== FILE: workers.dfy ===
/**
 * `_Worker`: one target's listener/writer. Its constructor synthesises the SQL once; its
 * loop buffers normalised records and flushes them to the database. The loop's locals
 * `rows`, `prev` and `now` are fields here, and `written` records what the database has
 * durably received, so that each method can be stated against the pipeline's functions.
 */
module Workers {
  import opened Results
  import opened Strings
  import opened Schema
  import opened Loaders
  import opened Pipeline

  /** Executes `statements` in order until one fails; reports whether all succeeded. */
  method ExecuteAll(sink: Sink, url: string, statements: seq<string>) returns (ok: bool)
    ensures ok <==> forall i :: 0 <= i < |statements| ==> sink.accepts(url, statements[i], [])
  {
    for i := 0 to |statements|
      invariant forall j :: 0 <= j < i ==> sink.accepts(url, statements[j], [])
    {
      if !sink.accepts(url, statements[i], []) {
        return false;
      }
    }
    return true;
  }

  class Worker {
    const config: TableConfig
    const load: Payload -> Result<Loaded>        // the configured loader object, called on every payload
    const strftime: (string, int) -> string      // `datetime.strftime` on the URL template
    const sqlTable: string
    const sqlIndices: seq<string>
    const sqlInsert: string
    const sqlInit: seq<string>
    const columns: seq<string>
    const interval: int                          // microseconds

    var rows: seq<Record>
    var prev: int
    var now: int
    ghost var written: seq<Batch>

    /** The synthesised statements and settings are those the configuration determines. */
    predicate Valid()
    {
      sqlTable == TableSql(config) &&
      sqlIndices == IndexStatements(config) &&
      sqlInsert == InsertSql(config) &&
      sqlInit == config.init &&
      columns == ColumnNames(config) &&
      interval == IntervalMicros(config)
    }

    /** What the worker fixed at construction, as the pipeline functions take it. */
    function Plan(): Setup
    {
      Setup(config, load, strftime, sqlInit + [sqlTable] + sqlIndices, sqlInsert)
    }

    ghost function Snapshot(): State
      reads this
    {
      State(rows, prev, now, written)
    }

    /**
     * `_Worker.__init__` for the database part of a target: the CREATE TABLE statement,
     * the CREATE INDEX statements, the INSERT statement, the interval and init statements.
     */
    constructor (config: TableConfig, load: Payload -> Result<Loaded>, strftime: (string, int) -> string)
      ensures Valid()
      ensures this.config == config && this.load == load && this.strftime == strftime
      ensures Plan().script == Script(config) && Plan().insert == InsertSql(config)
      ensures rows == [] && written == []
    {
      this.config := config;
      this.load := load;
      this.strftime := strftime;
      var spec := BuildColumnsSpec(config);
      sqlTable := "CREATE TABLE IF NOT EXISTS " + config.name + " (\n" + Join(spec, ",\n") + ");";
      var indices := BuildIndexStatements(config);
      sqlIndices := indices;
      var names := ColumnNames(config);
      columns := names;
      var insertColumns := names;
      if config.datetime {
        insertColumns := insertColumns + [DatetimeColumn];
      }
      if config.timestamp {
        insertColumns := insertColumns + [TimestampColumn];
      }
      if config.raw {
        insertColumns := insertColumns + [RawColumn];
      }
      assert insertColumns == InsertColumns(config);
      sqlInsert := "\n" + Indent + "INSERT " + config.insertPrefix + " INTO " + config.name +
        "(" + Join(insertColumns, ", ") + ")\n" +
        Indent + "VALUES(" + Placeholders(insertColumns) + ")\n" + Indent;
      interval := IntervalMicros(config);
      sqlInit := config.init;
      rows := [];
      prev := 0;
      now := 0;
      written := [];
    }

    /**
     * `flush(now, rows)`: on an empty buffer nothing happens; otherwise the init, table,
     * index and insert statements run in order against the URL for `now`, and only if all
     * succeed is the buffer committed as one batch and cleared.
     */
    method Flush(sink: Sink) returns (ok: bool)
      modifies this
      ensures (ok, Snapshot()) == Flushed(Plan(), old(Snapshot()), sink)
    {
      if rows == [] {
        return true;
      }
      var url := strftime(config.url, now);
      ghost var script := Plan().script;
      assert forall i :: 0 <= i < |sqlInit| ==> script[i] == sqlInit[i];
      assert script[|sqlInit|] == sqlTable;
      assert forall i :: 0 <= i < |sqlIndices| ==> script[|sqlInit| + 1 + i] == sqlIndices[i];
      if !sink.connects(url) {
        return false;
      }
      ok := ExecuteAll(sink, url, sqlInit);
      if !ok {
        return;
      }
      ok := sink.accepts(url, sqlTable, []);
      if !ok {
        return;
      }
      ok := ExecuteAll(sink, url, sqlIndices);
      if !ok {
        return;
      }
      assert forall i :: 0 <= i < |script| ==> sink.accepts(url, script[i], []) by {
        forall i | 0 <= i < |script| ensures sink.accepts(url, script[i], []) {
          if i > |sqlInit| {
            assert script[i] == sqlIndices[i - |sqlInit| - 1];
          }
        }
      }
      ok := sink.accepts(url, sqlInsert, rows);
      if !ok {
        return;
      }
      written := written + [Batch(url, rows)];
      rows := [];
    }

    /**
     * The inner loop of `run`: every decoded record, stamped with the auto-columns and
     * laid over `None` for every configured column, is appended to the buffer in order.
     */
    method Append(items: seq<Record>, data: Payload)
      requires Valid()
      modifies this
      ensures rows == old(rows) + NormalizeAll(config, items, now, data)
      ensures prev == old(prev) && now == old(now) && written == old(written)
    {
      ghost var rows0 := rows;
      for j := 0 to |items|
        invariant rows == rows0 + NormalizeAll(config, items[..j], now, data)
        invariant prev == old(prev) && now == old(now) && written == old(written)
      {
        var dictRepr := Normalize(config, columns, items[j], now, data);
        NormalizeAllStep(config, items, j, now, data);
        rows := rows + [dictRepr];
      }
      assert items[..|items|] == items;
    }

    /**
     * One pass of the `while` loop: a timeout does nothing; a message sets `now`, is
     * loaded and appended, and is followed by the flush check. The exception the loader
     * or the loop body raises, if any, is returned.
     */
    method Receive(tick: Tick) returns (error: Option<Error>)
      requires Valid()
      modifies this
      ensures Iterate(Plan(), Running(old(Snapshot())), tick) ==
        (if error.Some? then Crashed(Snapshot(), error.value) else Running(Snapshot()))
    {
      if tick.received.Timeout? {
        return None;
      }
      var data := tick.received.data;
      now := tick.clock;
      var loaded := load(data);
      if loaded.Err? {
        return Some(loaded.error);
      }
      var items := Items(config, loaded.value);
      if items.Err? {
        return Some(items.error);
      }
      Append(items.value, data);
      if now - prev > interval {
        var ok := Flush(tick.sink);
        if ok {
          prev := now;
        }
      }
      return None;
    }

    /**
     * `run`: starting with an empty buffer at `start`, each pass receives one tick; a
     * loader exception ends the run at once, and otherwise the final flush runs when stop
     * is requested.
     */
    method Run(start: int, ticks: seq<Tick>, finalSink: Sink) returns (ending: Ending)
      requires Valid()
      modifies this
      ensures (ending, Snapshot()) == Pipeline.Run(Plan(), start, old(written), ticks, finalSink)
    {
      now, prev := start, start;
      rows := [];
      ghost var first := Running(Start(start, written));
      for i := 0 to |ticks|
        invariant Steps(Plan(), first, ticks[..i]) == Running(Snapshot())
      {
        assert ticks[..i + 1][..i] == ticks[..i];
        var error := Receive(ticks[i]);
        if error.Some? {
          CrashIsFinal(Plan(), first, ticks, i + 1);
          assert ticks[..|ticks|] == ticks;
          ending := Aborted(error.value);
          return;
        }
      }
      assert ticks[..|ticks|] == ticks;
      var ok := Flush(finalSink);
      ending := Stopped(ok);
    }
  }

  /** The dict `run` appends for one decoded record. */
  method Normalize(config: TableConfig, columns: seq<string>, record: Record, now: int, data: Payload)
    returns (dictRepr: Record)
    requires columns == ColumnNames(config)
    ensures dictRepr == NormalizeRecord(config, record, now, data)
  {
    var each := record;
    if config.datetime {
      each := each[DatetimeColumn := DateTime(now)];
    }
    if config.timestamp {
      each := each[TimestampColumn := Int(EpochSeconds(now))];
    }
    if config.raw {
      each := each[RawColumn := Object(data)];
    }
    assert each == Stamp(config, record, now, data);
    dictRepr := map k | k in columns :: Value.Null;
    dictRepr := dictRepr + each;
  }
}
